=== FILE: README.md ===
# sol-sniper, modelled in Dafny

sol-sniper has two halves that meet in one file, `output.json`.

- **The pool listener** is `sniper.js`. It subscribes to the log notifications of the Raydium liquidity program. A notification without an error whose log lines mention `initialize2` makes it fetch the parsed transaction and take the token accounts at positions 9 and 8 of the Raydium instruction. Those become the input and output mint of a new swap request. The request has a fixed amount, slippage, priority fee, compute units and tip. `saveToFile` appends it to the JSON array in `output.json`: the array is kept when the file holds one, and otherwise starts afresh.
- **The swap runner** is `JITOScript/index.ts` and `JITOScript/jito.ts`. `executeSwaps` reads the array and runs every entry whose status is not exactly `"completed"` through `processSwap`. It sets the entry's status to `"completed"` or `"failed"` and rewrites the whole array after each entry.
  - `processSwap` calls `JitoSwapManager.executeSwap` and reports whether it returned without throwing.
  - `executeSwap` runs a pipeline of stages in order. It checks the configuration, gets a routing quote and then a swap transaction, and signs the swap. It picks a random tip account and builds a tip transfer of the fixed 500000 lamports. It simulates the swap. A rejected simulation makes it return quietly. Otherwise it sends both transactions, in base58, as one bundle to the block-engine relay and waits in `pollBundleStatus`.
  - `pollBundleStatus` waits 5 s, then asks for the bundle's status until it reads `"Landed"` or a loop check finds that 30 s have passed since the wait ended. It sleeps 3 s after every ordinary status, and logs a status only when it differs from the last one logged.

## Modules

- **Outcomes** (`outcomes.dfy`): `Option`, the pipeline's errors, and `Call<T>`. A `Call<T>` is what an awaited foreign call produced: a value, or an exception.
- **Records** (`records.dfy`): the `Swap` record and a JSON value type. It defines the object `JSON.stringify` writes for a record and the record read back from a JSON value. The two make a round trip.
- **BundlePoller** (`poller.dfy`): `pollBundleStatus`, as a function of the relay's replies and of the clock.
  - `PollEnv.reply(j)` is the reply to request `j`.
  - `PollEnv.gap(j)` is the extra time that passes before the loop check `j`.
  - `CheckTime` turns these into the elapsed time at each loop check. The model assumes the clock moves at least 1 ms per iteration, plus the 3 s sleep when the iteration slept (see "Left out").
  - The run yields its result, its number of status requests and its observable events: sleeps, requests, status log lines, the landing line and error lines.
  - `Iterations` is a lean reference for when the loop stops. `Changes` is a reference for the de-duplicated status log.
- **SwapExecution** (`swap.dfy`): `executeSwap` and the helpers it calls.
  - An `Oracle` supplies what each network or library call produced. The run returns its outcome and the list of stages it entered, each with its arguments.
  - `Fault` and `StagesFrom` form a reference description of the pipeline: a list of nine stages, each of which may fault.
- **WorkQueue** (`queue.dfy`):
  - `processSwap`;
  - `executeSwaps` as an imperative loop, proved equal to the reference `ExpectedBatch`;
  - properties of a batch run.
- **PoolListener** (`listener.dfy`): the log filter, `fetchRaydiumMints`, `saveToFile`, and one log notification handled end to end.
- **Handoff** (`handoff.dfy`): the two halves composed through the file. When the listener's write completes before a batch reads the file, and no batch is running meanwhile, the next batch reads the appended request back and runs it. The two programs do not coordinate access to the file (see "Left out").

## Behaviour worth knowing

Several of these run against what the code's names and log messages suggest; the model follows the code.

- **"Failed" status:** `pollBundleStatus` throws on a `"Failed"` status inside its own `try` (`JITOScript/jito.ts:188-195`). The error is swallowed and polling goes on until `"Landed"` or the deadline. A failed bundle therefore ends as a polling timeout, not as a bundle failure.
- **Rejected simulation:** `executeSwap` returns normally when the simulation rejects the swap (`JITOScript/jito.ts:251-254`). `processSwap` therefore reports success, and the batch records the entry `"completed"` even though nothing was sent.
- **Retries:** only entries whose status is exactly `"completed"` are skipped (`JITOScript/index.ts:38`). A `"failed"` entry is run again by the next batch.
- **Stage order:** the tip account and the tip transaction are fetched and built before the simulation (`JITOScript/jito.ts:239-250`), not after it.
- **Relay errors:** `sendBundle` does not inspect an error answer from the relay (`JITOScript/jito.ts:156-163`). The bundle id is then `undefined` (`None` here), and that id is what gets polled.
- **Tip amount:** the tip is always `CONFIG.JITO_TIP_AMOUNT` (500000 lamports). The `jitoTip`, `slippageBps`, `priorityFee` and `computeUnits` of a record never reach the pipeline.
- **Failed writes:** when `writeJson` fails, the error escapes the loop into the outer `catch` and the rest of the batch is abandoned (`JITOScript/index.ts:46-52`).
- **HTTP errors with a non-JSON body:** the `catch` of `executeSwap` awaits `error.response.json()` before rethrowing an HTTP error (`JITOScript/jito.ts:263-269`). When the body is not JSON, that read rejects and its error escapes instead of the original one (`BodyNotJson` here).

## Model

| member | source | states |
|---|---|---|
| Records.FromJson | JITOScript/index.ts:5-14 | A JSON value reads as a record only if it is an object. The record has no status exactly when the object has no "status" member. |
| Records.RecordRoundTrip | JITOScript/index.ts:35-46 | Reading back the object written for any record gives that same record, with or without a status. |
| BundlePoller.Step | JITOScript/jito.ts:172-195 | One iteration makes exactly one status request, and returns true exactly when the status it reads is "Landed". |
| BundlePoller.StepSpec | JITOScript/jito.ts:172-195 | An iteration makes its request first, and `lastStatus` takes the status read, if any. A status is logged exactly when it differs from `lastStatus`. The 3 s sleep happens exactly after an ordinary status. An error is logged exactly when no status could be read or the status was "Failed". |
| BundlePoller.CheckTimeMonotone | JITOScript/jito.ts:168-171 | Each later loop check reads the clock at least one millisecond per iteration later. |
| BundlePoller.Loop | JITOScript/jito.ts:171-196 | The loop makes one status request per iteration. If it returns true, its last request read "Landed". |
| BundlePoller.Iterations | JITOScript/jito.ts:171-197 | Reference exit rule: the loop stops at the first failed clock check or the first "Landed" reply, never earlier than the iteration it starts from. |
| BundlePoller.LoopFollowsIterations | JITOScript/jito.ts:171-196 | The loop ends exactly as the exit rule says. Neither `lastStatus` nor the log affects when it stops. |
| BundlePoller.IterationsWithinDeadline | JITOScript/jito.ts:171-197 | The last iteration entered passed its clock check; the loop gives up only after a clock check has failed. Every earlier check then passed too, by `BundlePoller.QueryBeforeDeadline`. |
| BundlePoller.IterationsStopAtFirstLanded | JITOScript/jito.ts:183-186 | No reply before the one the loop returned on read "Landed". In a run that gave up, no reply did. |
| BundlePoller.PollBundleStatus | JITOScript/jito.ts:165-169 | The run starts with the 5 s warm-up sleep. |
| BundlePoller.Settle | JITOScript/jito.ts:183-197 | The promise resolves to true on landing and otherwise rejects with the polling-timeout error. It never resolves to false. |
| BundlePoller.PollBundleStatusSpec | JITOScript/jito.ts:165-198 | A whole run matches its request count to its queries. It returns true only on a "Landed" reply, with no earlier reply reading "Landed". Every request is made before the deadline. It gives up only once a clock check is past the deadline. |
| BundlePoller.QueryBeforeDeadline | JITOScript/jito.ts:168-174 | Every status request of a run is made less than 30 s after `startTime`. |
| BundlePoller.LandsOnFirstLanded | JITOScript/jito.ts:183-186 | If the first "Landed" reply is requested before the deadline, the run returns true right after that request and makes no later one. |
| BundlePoller.OnlyLandedOrDeadlineExit | JITOScript/jito.ts:188-195 | A failed request, a malformed or empty reply, or a "Failed" status does not end the loop. The next iteration runs whenever its clock check is within the deadline. |
| BundlePoller.QueriesBounded | JITOScript/jito.ts:171 | Under the model's clock, which gains at least 1 ms per loop check, a run makes at most 30000 status requests whatever the relay answers. The bound rests on that clock assumption, not on the loop. |
| BundlePoller.PendingRunMakesAtMostTenQueries | JITOScript/jito.ts:171-192 | If every reply is an ordinary status, the run times out after at most ten requests. |
| BundlePoller.PendingCheckTime | JITOScript/jito.ts:192 | If every reply is an ordinary status, loop check j comes at least 3001·j ms after `startTime`. |
| BundlePoller.ChangesNeverRepeat | JITOScript/jito.ts:178-181 | De-duplicated statuses never repeat one twice in a row, nor start with the status they started from. |
| BundlePoller.LoopLogsChanges | JITOScript/jito.ts:177-181 | The "Bundle status:" lines of the loop are exactly the de-duplicated sequence of the statuses it read. |
| BundlePoller.PollLogsChanges | JITOScript/jito.ts:169-181 | The same for a whole run, which starts from the empty `lastStatus`. |
| SwapExecution.CheckEnv | JITOScript/jito.ts:200-207 | Passes exactly when the wallet secret list is non-empty, that is when `WALLET_SECRET` is set, and the endpoint is set. The secret is checked first. |
| SwapExecution.GetSwapQuote | JITOScript/jito.ts:65-77 | Yields a quote exactly when the client returned one. An exception passes through unchanged. An empty answer becomes 'No quote found'. |
| SwapExecution.GetSwapTransaction | JITOScript/jito.ts:79-88 | The same for the swap transaction, with 'No swap result found'. |
| SwapExecution.GetTipAccount | JITOScript/jito.ts:120-124 | The account picked is one of those returned. It is missing exactly when the list is empty. An RPC exception passes through. |
| SwapExecution.CreateTipTransaction | JITOScript/jito.ts:90-107 | Without a tip account the public-key constructor throws. With one, the blockhash fetch and signing decide the outcome. |
| SwapExecution.SimulateTx | JITOScript/jito.ts:126-142 | True exactly when the simulation call returned a result without an error. It never throws. |
| SwapExecution.PollVerdict | JITOScript/jito.ts:260 | The only error polling can raise is the timeout. |
| SwapExecution.Submit | JITOScript/jito.ts:209-258 | The stages before polling either stop, with at most eight stages and, if they return normally, the rejected-simulation result, or send the bundle after exactly eight stages with the id the relay gave. |
| SwapExecution.ExecuteSwap | JITOScript/jito.ts:209-271 | A run enters one to nine stages. A run that returns normally got at least as far as the simulation. |
| SwapExecution.SubmitRanks | JITOScript/jito.ts:218-257 | The stages up to `sendBundle` are entered in pipeline order. |
| SwapExecution.ExecuteSwapRanks | JITOScript/jito.ts:209-262 | All stages are entered in pipeline order, with none skipped or repeated. |
| SwapExecution.ExecuteSwapFaults | JITOScript/jito.ts:263-270 | Every stage before the last one entered succeeded. The run throws exactly when that last stage faulted, with that stage's error as the `catch` rethrows it: unchanged, except that an HTTP error whose body is not JSON is replaced by the body's parse failure. |
| SwapExecution.Rethrow | JITOScript/jito.ts:263-269 | The error the `catch` finally throws is the original one, except for an HTTP error whose body `response.json()` cannot parse, which is replaced by that parse failure. |
| SwapExecution.RethrowChangesOnlyUnreadableBodies | JITOScript/jito.ts:263-269 | The `catch` rethrows every error unchanged, except an HTTP error whose body `response.json()` cannot parse, which becomes that parse failure. |
| SwapExecution.UnreadableQuoteErrorIsReplaced | JITOScript/jito.ts:223-269 | When the quote service fails with an HTTP error whose body is not JSON, `executeSwap` rejects with the parse failure after entering two stages. |
| SwapExecution.ExecuteSwapInOrder | JITOScript/jito.ts:209-270 | Both of the above together. |
| SwapExecution.ExecuteSwapGate | JITOScript/jito.ts:250-262 | A run returns the rejected-simulation result exactly when it stops at the simulation. A run that reaches the simulation goes past it exactly when the simulation passes. A landed run went through all nine stages and carries the relay's bundle id. |
| SwapExecution.ExecuteSwapArguments | JITOScript/jito.ts:223-257 | The quote is requested for the entry's mints and amount, with intermediate tokens restricted. The tip is the fixed 500000 lamports. The bundle holds the signed swap, then the tip transaction, both in base58. |
| SwapExecution.RejectedRunSendsNothing | JITOScript/jito.ts:250-254 | A run whose simulation rejects the swap neither sends a bundle nor polls. |
| SwapExecution.ExecuteSwapFollowsStages | JITOScript/jito.ts:209-270 | `executeSwap` enters exactly the stages the reference stage list predicts, and ends with the predicted outcome, including the error the `catch` rethrows. |
| WorkQueue.ProcessSwap | JITOScript/index.ts:22-31 | Reports success exactly when the reference stage list predicts that `executeSwap` returns normally. |
| WorkQueue.SimulationRejectedCountsAsSuccess | JITOScript/jito.ts:250-254 | A swap that reaches the simulation and is rejected returns normally from `executeSwap`, so `processSwap` reports success. |
| WorkQueue.OnlyMintsAndAmountMatter | JITOScript/index.ts:25 | Two entries with the same mints and amount run identically, whatever their other fields. Every tip sent is the fixed amount, never the entry's `jitoTip`. |
| WorkQueue.Settle | JITOScript/index.ts:44 | A handled entry gets the status "completed" exactly on success and "failed" otherwise. Every other field stays as it was. |
| WorkQueue.PendingBelowExactly | JITOScript/index.ts:37-41 | The positions run are exactly those whose status is not "completed", in increasing order. |
| WorkQueue.HorizonFrom | JITOScript/index.ts:46-52 | The batch gets through the array up to and including the first run entry whose write fails. |
| WorkQueue.Snapshots | JITOScript/index.ts:46 | After each entry run, the whole array is written with every position up to that entry handled. |
| WorkQueue.ExecuteSwaps | JITOScript/index.ts:33-53 | The loop over the file's entries does exactly what the entry-by-entry reference description says. This covers the final array, the entries run, the arrays written and whether it was cut short. |
| WorkQueue.UnreadableFileDoesNothing | JITOScript/index.ts:34-35 | A file that cannot be read or parsed leads to no swap and no write. |
| WorkQueue.BatchEntries | JITOScript/index.ts:37-47 | The batch keeps the array's length, its order and every field but the status. A "completed" entry is never run and keeps its status. Every other entry it gets through is run, and ends "completed" exactly on success. Entries beyond a failed write are untouched. |
| WorkQueue.RunInOrder | JITOScript/index.ts:37 | Entries are run strictly in array order, each at most once. |
| WorkQueue.SnapshotReflectsRunEntries | JITOScript/index.ts:44-46 | The k-th array written holds exactly the status updates of the first k+1 entries run. |
| WorkQueue.AllCompletedIsIdempotent | JITOScript/index.ts:38-41 | A batch over a file whose entries are all "completed" runs nothing, writes nothing and changes nothing. |
| WorkQueue.CleanBatch | JITOScript/index.ts:37-49 | When every write succeeds, the batch is not cut short and every entry ends "completed" or "failed". The file holds the final array. |
| WorkQueue.CleanBatchPersisted | JITOScript/index.ts:46 | When every write succeeds, the last array written is the final array, or the array as read when nothing ran. |
| WorkQueue.SwapAttempts | JITOScript/index.ts:43 | The success the batch sees at each position is what `processSwap` reports for that entry. |
| WorkQueue.RejectedSimulationRecordedCompleted | JITOScript/index.ts:43-44 | An entry whose swap reaches the simulation and is rejected by it is recorded "completed" by the batch. By `SwapExecution.RejectedRunSendsNothing`, no bundle was sent for it. |
| PoolListener.IncludesIffOccurs | sniper.js:28 | `includes` finds the pattern exactly when it occurs at some position of the line. |
| PoolListener.SomeIncludes | sniper.js:28 | True exactly when some log line includes the pattern. |
| PoolListener.TriggersLookup | sniper.js:25-31 | The transaction is looked up exactly when the notification has no error, has logs, and one log line contains "initialize2". |
| PoolListener.FindProgram | sniper.js:46 | Finds the first instruction of the given program, or reports that none exists. |
| PoolListener.FetchRaydiumMints | sniper.js:37-78 | Gives a new request exactly when the transaction exists and the Raydium instruction has at least ten accounts. The input mint is account 9 and the output mint is account 8, with the fixed defaults and no status. With no instruction or no account list, nothing is found. With a missing transaction, a failed fetch or a short list, the error is caught. |
| PoolListener.SaveToFile | sniper.js:83-114 | The array written keeps every element already in the file, in order, and adds the new record last. |
| PoolListener.FallbackToSingleton | sniper.js:87-100 | A missing or empty file, unparseable text, or a parse that is not an array gives the one-element array. |
| PoolListener.AppendsToArray | sniper.js:90-103 | An array in a non-empty file is kept, with the new record appended. |
| PoolListener.HandleLogEvent | sniper.js:21-35 | A notification leads to a write exactly when it triggers a lookup that finds a request. What is written is the existing array plus that request's record. |
| Handoff.ArrayRoundTrip | JITOScript/index.ts:35-46 | An array of written records reads back as the same records. |
| Handoff.DetectedRequestIsAppended | sniper.js:83-114 | If a non-empty file holds an array of records (possibly `[]`), the next batch reads back the old records followed by the new request. |
| Handoff.DetectedRequestIsRun | JITOScript/index.ts:37-46 | When every write succeeds, the appended request is run by the batch and recorded "completed" exactly when `processSwap` succeeded. |

## Left out

- Network clients: the quote and swap HTTP client, the Solana RPC connection and the block-engine relay are not modelled. What each awaited call produced is an input (`Call<T>`) in the `Oracle`, `PollEnv`, or the transaction a lookup returns.
- Transaction decoding, signing, serialization and base58 conversion are opaque. The signed swap and tip transactions are oracle strings, and `convertBase64ToBase58` is an oracle function.
- `Math.random` in `getTipAccount` is an oracle draw `tipPick`. The index used is `tipPick % n`.
- Every awaited call is assumed to settle: a `Call<T>` either returned or threw, and none stays pending. None of the awaited calls has a timeout (`JITOScript/jito.ts:74`, `:80`, `:104`, `:122`, `:129`, `:158`, `:174`, and `JITOScript/index.ts:35`, `:46`). The deadline of `pollBundleStatus` is checked only between requests (`JITOScript/jito.ts:171`), so a status request that never answers (`JITOScript/jito.ts:174`) keeps the poll waiting past 30 s indefinitely, and `executeSwap`, `processSwap` and the rest of the batch wait with it: no later entry is run or written. Such a stuck batch is not modelled. The termination of `BundlePoller.Loop`, the 30 s bound of `pollBundleStatus`, and `WorkQueue.CleanBatch`'s claim that the batch gets through every entry hold only for runs in which every call settles.
- Real time is not modelled. The clock is the elapsed-time function `CheckTime` over oracle gaps, and sleeps are events, not delays.
- File I/O, `JSON.parse` and `JSON.stringify` are modelled at the level of JSON values. A read is an oracle result. The file's text (whitespace, escaping, number syntax) is not modelled. An object keeps its members in order, as `ToJson` writes them, and reading goes by key (`Records.Member`, the last member with that key).
- Console logging is modelled only where it is a property of the poller: the status lines, the landing line and the error lines. All other log lines are left out.
- `simulateBundle` is commented out of `executeSwap` and unused, so it is left out.
- `saveToFile` calls can interleave when several notifications arrive at once. The model handles one notification at a time, because interleaving depends on the event loop's scheduling.
- `Handoff.DetectedRequestIsAppended` and `Handoff.DetectedRequestIsRun` assume the listener's write completes before a batch reads the file, and that no batch overlaps it. The two processes share `output.json` without locking, and two overlaps break the hand-off. First, `executeSwaps` reads the array once (`JITOScript/index.ts:35`) and rewrites the file from that in-memory array after each entry (`JITOScript/index.ts:46`), so a record appended during a batch is erased by the batch's next write and never run. Second, `saveToFile` reads, appends and rewrites the file (`sniper.js:87-106`); if a batch write lands between that read and the `writeFile`, the listener restores an entry without its new `"completed"` status, and the next batch runs that swap again. Interleavings of two processes are not modelled.
- `PoolListener.SaveToFile`: a failed `writeFile` is not modelled. `fs.writeFile` truncates the file before writing, so a write that fails part-way (a full disk, an I/O error) can leave `output.json` empty or partial. The next `saveToFile` then cannot parse it and starts a fresh one-element array, dropping every queued record. The next batch's `readJson` fails and nothing runs. The model assumes every write of the listener completes.
- `WorkQueue.Persisted`: a failed `writeJson` is taken to leave the file as it was. A write that fails part-way can leave the file truncated, which the next read of either program then fails on; that is not modelled.
- `BundlePoller.CheckTime`: the clock is assumed to gain at least 1 ms between loop checks, and at least the 3 s interval across a sleep. `Date.now()` is a wall clock: two checks can fall in the same millisecond (the paths for a failed request, a malformed reply and a "Failed" status do not sleep), and the clock can step back. `BundlePoller.QueriesBounded`, `BundlePoller.PendingRunMakesAtMostTenQueries`, `BundlePoller.PendingCheckTime` and `BundlePoller.CheckTimeMonotone` rest on this assumption. The model's loop also relies on it to end. A clock that stalls or steps back, which the source allows, is not modelled.
- The `JitoSwapManager` constructor parses `WALLET_SECRET` with `JSON.parse` and builds the keypair and connection. It is left out, because it runs once before any batch and its failure ends the process. The list `checkEnvironment` tests is empty only when `WALLET_SECRET` is unset (an empty string splits to `[""]`, one element). An unset variable already makes the constructor's `JSON.parse` throw when `index.ts` loads (`JITOScript/jito.ts:55`), so in the running program `NoWalletSecret` never escapes `executeSwap`. The model keeps the check as written.
- `BundlePoller.StatusOf`: each status entry is taken to be a string. An entry whose `status` field is not a string is not modelled.
- `Records.FromJson`: JSON numbers are integers only, the only numbers the record holds. Fractional numbers are not modelled.
- `WorkQueue.ExecuteSwaps`: the array read is taken to consist of well-formed records. A read array with non-record elements is modelled in `Handoff.DecodeAll` but not fed into the batch.
- `SwapExecution.CreateTipTransaction`: the blockhash fetch and signing of the tip transaction are one oracle outcome, not two separate calls.

=== FILE: handoff.dfy ===
/** The work-queue file between the two programs: sniper.js appends a request
    to the JSON array, and JITOScript/index.ts reads the array back as swap
    records and runs the batch over it. The lemmas here take the listener's
    write to complete before a batch reads the file, with no batch running
    meanwhile; the two programs do not coordinate, so an overlap can lose a
    request or a status. */
module Handoff {
  import opened Outcomes
  import opened Records
  import PoolListener
  import WorkQueue

  /** The array `writeJson` stores for a list of records. */
  function EncodeAll(swaps: seq<Swap>): (items: seq<Json>)
    ensures |items| == |swaps|
    ensures forall i :: 0 <= i < |swaps| ==> items[i] == ToJson(swaps[i])
  {
    seq(|swaps|, i requires 0 <= i < |swaps| => ToJson(swaps[i]))
  }

  /** An array read back as records: every element must be a record. */
  function DecodeAll(items: seq<Json>): (r: Option<seq<Swap>>)
    ensures r.Some? <==> forall i :: 0 <= i < |items| ==> FromJson(items[i]).Some?
    ensures r.Some? ==> |r.value| == |items|
    ensures r.Some? ==> forall i :: 0 <= i < |items| ==> FromJson(items[i]) == Some(r.value[i])
  {
    if forall i :: 0 <= i < |items| ==> FromJson(items[i]).Some? then
      Some(seq(|items|, i requires 0 <= i < |items| => FromJson(items[i]).value))
    else None
  }

  /** Reading back an array of written records gives the records. */
  lemma ArrayRoundTrip(swaps: seq<Swap>)
    ensures DecodeAll(EncodeAll(swaps)) == Some(swaps)
  {
    var items := EncodeAll(swaps);
    forall i | 0 <= i < |swaps|
      ensures FromJson(items[i]) == Some(swaps[i])
    {
      RecordRoundTrip(swaps[i]);
    }
    assert DecodeAll(items).value == swaps;
  }

  /** A pool detected while a non-empty file holds an array of records is
      appended behind them, and the next batch reads back the old records
      followed by the new request. */
  lemma DetectedRequestIsAppended(
    existing: seq<Swap>, text: string, event: PoolListener.LogEvent,
    tx: Call<Option<seq<PoolListener.Instruction>>>, raydium: string)
    requires |text| > 0
    requires PoolListener.TriggersLookup(event)
    requires PoolListener.FetchRaydiumMints(tx, raydium).Found?
    ensures
      var file := PoolListener.ReadText(text, PoolListener.ParsedTo(JArray(EncodeAll(existing))));
      var written := PoolListener.HandleLogEvent(event, tx, raydium, file);
      && written.Some?
      && DecodeAll(written.value) == Some(existing + [PoolListener.FetchRaydiumMints(tx, raydium).request])
  {
    var request := PoolListener.FetchRaydiumMints(tx, raydium).request;
    var file := PoolListener.ReadText(text, PoolListener.ParsedTo(JArray(EncodeAll(existing))));
    assert PoolListener.HandleLogEvent(event, tx, raydium, file).value
      == EncodeAll(existing) + [ToJson(request)] == EncodeAll(existing + [request]);
    ArrayRoundTrip(existing + [request]);
  }

  /** The appended request has no status, so when the batch gets through the
      array it runs the request, and records it "completed" exactly when
      `processSwap` succeeded. */
  lemma DetectedRequestIsRun(
    existing: seq<Swap>, text: string, event: PoolListener.LogEvent,
    tx: Call<Option<seq<PoolListener.Instruction>>>, raydium: string, attempts: seq<WorkQueue.Attempt>)
    requires |text| > 0
    requires PoolListener.TriggersLookup(event)
    requires PoolListener.FetchRaydiumMints(tx, raydium).Found?
    requires |attempts| == |existing| + 1
    requires forall i :: 0 <= i < |attempts| ==> attempts[i].written
    ensures
      var swaps := existing + [PoolListener.FetchRaydiumMints(tx, raydium).request];
      var run := WorkQueue.ExpectedBatch(Some(swaps), attempts);
      && |existing| in run.executed
      && run.entries[|existing|].status
         == Some(if attempts[|existing|].success then WorkQueue.CompletedStatus else WorkQueue.FailedStatus)
  {
    var swaps := existing + [PoolListener.FetchRaydiumMints(tx, raydium).request];
    assert !WorkQueue.IsCompleted(swaps[|existing|]);
    WorkQueue.CleanHorizon(swaps, attempts, 0);
    WorkQueue.BatchEntries(swaps, attempts);
  }
}

=== FILE: listener.dfy ===
/** The pool listener of sniper.js: a log event of the Raydium program that
    mentions "initialize2" leads to a lookup of its transaction; the token
    accounts at positions 9 and 8 of the Raydium instruction become a new
    swap request, which is appended to the work-queue file. */
module PoolListener {
  import opened Outcomes
  import opened Records

  const InstructionName: string := "initialize2"
  const TokenAIndex: nat := 8
  const TokenBIndex: nat := 9

  const DefaultAmount: int := 1000000000
  const DefaultSlippageBps: int := 50
  const DefaultPriorityFee: int := 1000
  const DefaultComputeUnits: int := 400000
  const DefaultJitoTip: int := 100000

  // ---- the log filter ----

  /** `pattern` occurs in `line` starting at position i. */
  predicate OccursAt(line: string, pattern: string, i: nat) {
    i + |pattern| <= |line| && line[i..i + |pattern|] == pattern
  }

  /** `line.includes(pattern)`, as a left-to-right scan. */
  function Includes(line: string, pattern: string): bool
    decreases |line|
  {
    if |pattern| > |line| then false
    else if line[..|pattern|] == pattern then true
    else |line| > 0 && Includes(line[1..], pattern)
  }

  /** The scan finds the pattern exactly when it occurs somewhere. */
  lemma {:induction false} IncludesIffOccurs(line: string, pattern: string)
    ensures Includes(line, pattern) <==> exists i: nat :: OccursAt(line, pattern, i)
    decreases |line|
  {
    if |pattern| > |line| {
      forall i: nat
        ensures !OccursAt(line, pattern, i)
      {
      }
    } else if line[..|pattern|] == pattern {
      assert OccursAt(line, pattern, 0);
    } else {
      IncludesIffOccurs(line[1..], pattern);
      if Includes(line[1..], pattern) {
        var i: nat :| OccursAt(line[1..], pattern, i);
        assert line[1..][i..i + |pattern|] == line[i + 1..i + 1 + |pattern|];
        assert OccursAt(line, pattern, i + 1);
      } else {
        forall i: nat
          ensures !OccursAt(line, pattern, i)
        {
          if i > 0 && OccursAt(line, pattern, i) {
            assert line[1..][i - 1..i - 1 + |pattern|] == line[i..i + |pattern|];
            assert OccursAt(line[1..], pattern, i - 1);
          }
        }
      }
    }
  }

  /** `logs.some(log => log.includes(pattern))`. */
  function SomeIncludes(logs: seq<string>, pattern: string): (b: bool)
    ensures b <==> exists k :: 0 <= k < |logs| && Includes(logs[k], pattern)
  {
    if |logs| == 0 then false
    else Includes(logs[0], pattern) || SomeIncludes(logs[1..], pattern)
  }

  /** A log notification: its lines (absent when `null`), whether it carries
      an error, and the transaction signature. */
  datatype LogEvent = LogEvent(logs: Option<seq<string>>, err: bool, signature: string)

  /** The `onLogs` callback looks the transaction up exactly when the event
      has no error and one of its lines mentions "initialize2". */
  function TriggersLookup(event: LogEvent): (b: bool)
    ensures b <==> (!event.err && event.logs.Some?
                    && exists k: nat, i: nat :: k < |event.logs.value| && OccursAt(event.logs.value[k], InstructionName, i))
  {
    var b := !event.err && event.logs.Some? && SomeIncludes(event.logs.value, InstructionName);
    assert b <==> (!event.err && event.logs.Some?
                   && exists k: nat, i: nat :: k < |event.logs.value| && OccursAt(event.logs.value[k], InstructionName, i)) by {
      if event.logs.Some? {
        var logs := event.logs.value;
        forall k | 0 <= k < |logs| {
          IncludesIffOccurs(logs[k], InstructionName);
        }
      }
    }
    b
  }

  // ---- the transaction lookup ----

  /** An instruction of the parsed transaction: its program and, for raw
      instructions, its account list. */
  datatype Instruction = Instruction(programId: string, accounts: Option<seq<string>>)

  /** `instructions.find(ix => ix.programId === program)`: the first match. */
  function FindProgram(instructions: seq<Instruction>, program: string): (r: Option<nat>)
    ensures r.Some? ==> r.value < |instructions| && instructions[r.value].programId == program
    ensures r.Some? ==> forall j :: 0 <= j < r.value ==> instructions[j].programId != program
    ensures r.None? ==> forall j :: 0 <= j < |instructions| ==> instructions[j].programId != program
  {
    if |instructions| == 0 then None
    else if instructions[0].programId == program then Some(0)
    else match FindProgram(instructions[1..], program)
      case None => None
      case Some(i) => Some(i + 1)
  }

  /** The request `fetchRaydiumMints` builds: the account at position 9 is
      the input mint, the one at position 8 the output mint; the rest is
      fixed and there is no status. */
  function NewRequest(tokenA: string, tokenB: string): Swap {
    Swap(tokenB, tokenA, DefaultAmount, DefaultSlippageBps, DefaultPriorityFee,
         DefaultComputeUnits, DefaultJitoTip, None)
  }

  /** How a lookup ends: nothing found, an exception caught (nothing saved),
      or a new request to save. */
  datatype Lookup = NoAccounts | Caught | Found(request: Swap)

  /** `fetchRaydiumMints`. `tx` is what `getParsedTransaction` produced: its
      instructions, or None for a `null` transaction. */
  function FetchRaydiumMints(tx: Call<Option<seq<Instruction>>>, raydium: string): (r: Lookup)
    ensures tx.Threw? || tx == Returned(None) ==> r == Caught
    ensures r.Found? ==> tx.Returned? && tx.value.Some?
    ensures r.Found? ==>
      var ixs := tx.value.value;
      exists i :: FindProgram(ixs, raydium) == Some(i)
        && ixs[i].accounts.Some? && |ixs[i].accounts.value| >= 10
        && r.request.inputMint == ixs[i].accounts.value[TokenBIndex]
        && r.request.outputMint == ixs[i].accounts.value[TokenAIndex]
    ensures r.Found? ==>
      && r.request.status.None? && r.request.amount == DefaultAmount
      && r.request.slippageBps == DefaultSlippageBps && r.request.priorityFee == DefaultPriorityFee
      && r.request.computeUnits == DefaultComputeUnits && r.request.jitoTip == DefaultJitoTip
    ensures tx.Returned? && tx.value.Some? ==>
      (r == NoAccounts <==>
        match FindProgram(tx.value.value, raydium)
        case None => true
        case Some(i) => tx.value.value[i].accounts.None?)
    ensures r == Caught && tx.Returned? && tx.value.Some? ==>
      exists i :: FindProgram(tx.value.value, raydium) == Some(i)
        && tx.value.value[i].accounts.Some? && |tx.value.value[i].accounts.value| < 10
  {
    match tx
    case Threw(_) => Caught
    case Returned(None) => Caught
    case Returned(Some(ixs)) =>
      match FindProgram(ixs, raydium)
      case None => NoAccounts
      case Some(i) =>
        match ixs[i].accounts
        case None => NoAccounts
        case Some(accounts) =>
          if |accounts| <= TokenBIndex then Caught
          else Found(NewRequest(accounts[TokenAIndex], accounts[TokenBIndex]))
  }

  // ---- appending to the file ----

  /** What `JSON.parse` made of the file's text. */
  datatype Parsed = Unparseable | ParsedTo(value: Json)

  /** What `readFile` delivered: an error, or the text and its parse. */
  datatype FileRead = ReadFailed | ReadText(text: string, parsed: Parsed)

  /** The array already in the file, as `saveToFile` sees it: kept only when
      the file was read, is not empty and parses to an array. */
  function Existing(file: FileRead): seq<Json> {
    match file
    case ReadText(text, ParsedTo(JArray(items))) => if |text| > 0 then items else []
    case _ => []
  }

  /** `saveToFile`: the array it writes back. */
  function SaveToFile(file: FileRead, newData: Json): (written: seq<Json>)
    ensures |written| == |Existing(file)| + 1
    ensures forall i :: 0 <= i < |Existing(file)| ==> written[i] == Existing(file)[i]
    ensures written[|written| - 1] == newData
  {
    Existing(file) + [newData]
  }

  /** A missing or empty file, text that does not parse, or a parse that is
      not an array all give the one-element array. */
  lemma FallbackToSingleton(file: FileRead, newData: Json)
    requires || file.ReadFailed?
             || (file.ReadText? && |file.text| == 0)
             || (file.ReadText? && file.parsed.Unparseable?)
             || (file.ReadText? && file.parsed.ParsedTo? && !file.parsed.value.JArray?)
    ensures SaveToFile(file, newData) == [newData]
  {
  }

  /** An array in a non-empty file is kept, with the new record last. */
  lemma AppendsToArray(text: string, items: seq<Json>, newData: Json)
    requires |text| > 0
    ensures SaveToFile(ReadText(text, ParsedTo(JArray(items))), newData) == items + [newData]
  {
  }

  // ---- the whole callback ----

  /** One log event handled end to end: the array written to the file, or
      None when nothing is written. */
  function HandleLogEvent(event: LogEvent, tx: Call<Option<seq<Instruction>>>, raydium: string, file: FileRead): (r: Option<seq<Json>>)
    ensures r.Some? <==> TriggersLookup(event) && FetchRaydiumMints(tx, raydium).Found?
    ensures r.Some? ==> r.value == Existing(file) + [ToJson(FetchRaydiumMints(tx, raydium).request)]
  {
    if !TriggersLookup(event) then None
    else match FetchRaydiumMints(tx, raydium)
      case Found(request) => Some(SaveToFile(file, ToJson(request)))
      case _ => None
  }
}

=== FILE: outcomes.dfy ===
/** Values shared by every part of the model: optional values, the errors the
    swap pipeline can throw, and the outcome of one awaited foreign call. */
module Outcomes {

  /** An optional value; `None` stands for JavaScript's `undefined`/`null`. */
  datatype Option<+T> = None | Some(value: T)

  /** The errors that can escape a stage of the swap pipeline. */
  datatype Error =
    | NoWalletSecret                 // checkEnvironment: WALLET_SECRET unset, so the list is empty
    | NoJitoEndpoint                 // checkEnvironment: JITO_ENDPOINT is the empty string
    | NoQuoteFound                   // getSwapQuote: the quote service answered with nothing
    | NoSwapResultFound              // getSwapTransaction: the swap service answered with nothing
    | ApiError(body: string)         // a ResponseError raised by the quote/swap HTTP client
    | BodyNotJson(body: string)      // `error.response.json()` rejected: the ApiError's body is not JSON
    | UndefinedTipAccount            // the PublicKey constructor rejected an `undefined` tip account
    | RuntimeError(message: string)  // any other exception: transport, RPC, decoding, bad key
    | PollingTimeout                 // pollBundleStatus ran past its deadline

  /** What an awaited call into code outside the model produced: a value, or an exception.
      Every call is taken to settle; a call that stays pending is not modelled. */
  datatype Call<+T> = Returned(value: T) | Threw(error: Error)
}

=== FILE: poller.dfy ===
/** The bundle-status poller (`pollBundleStatus` in JITOScript/jito.ts): after
    a warm-up wait it asks the relay for the bundle's status until the status
    is "Landed" or the deadline has passed. Every reply, every clock reading
    and the time each iteration takes are inputs to the model. */
module BundlePoller {
  import opened Outcomes

  const DefaultWaitBeforePollMs: nat := 5000
  const PollTimeoutMs: nat := 30000
  const PollIntervalMs: nat := 3000
  const LandedStatus: string := "Landed"
  const FailedStatus: string := "Failed"

  /** The answer to one `getInflightBundleStatuses` request. */
  datatype Reply =
    | RpcFailure                       // the request itself was rejected
    | Malformed                        // `response.result.value` is absent
    | Statuses(statuses: seq<string>)  // the status entries; only the first is read

  /** What the poller does that can be seen from outside. */
  datatype Event =
    | Slept(ms: nat)
    | Queried(bundleId: Option<string>)
    | StatusLogged(status: string)
    | LandedLogged
    | ErrorLogged

  /** The status a reply yields, or None when reading it throws: the request
      failed, the value is missing, or the list of statuses is empty. */
  function StatusOf(reply: Reply): Option<string> {
    match reply
    case Statuses(s) => if |s| > 0 then Some(s[0]) else None
    case _ => None
  }

  /** An iteration ends with the interval sleep exactly when it read a status
      that is neither "Landed" (return) nor "Failed" (thrown and caught). */
  predicate SleepsAfter(reply: Reply) {
    StatusOf(reply).Some? && StatusOf(reply).value != LandedStatus && StatusOf(reply).value != FailedStatus
  }

  // ---- reading an event trace ----

  /** The statuses written by the "Bundle status:" log line, in order. */
  function Logged(events: seq<Event>): seq<string> {
    if |events| == 0 then []
    else (if events[0].StatusLogged? then [events[0].status] else []) + Logged(events[1..])
  }

  function QueryCount(events: seq<Event>): nat {
    if |events| == 0 then 0
    else (if events[0].Queried? then 1 else 0) + QueryCount(events[1..])
  }

  function SleptMs(events: seq<Event>): nat {
    if |events| == 0 then 0
    else (if events[0].Slept? then events[0].ms else 0) + SleptMs(events[1..])
  }

  /** Reading a trace piecewise: each reading of two traces one after the
      other is the two readings one after the other. */
  lemma TraceAppend(a: seq<Event>, b: seq<Event>)
    ensures Logged(a + b) == Logged(a) + Logged(b)
    ensures QueryCount(a + b) == QueryCount(a) + QueryCount(b)
    ensures SleptMs(a + b) == SleptMs(a) + SleptMs(b)
  {
    LoggedAppend(a, b);
    QueryCountAppend(a, b);
    SleptAppend(a, b);
  }

  lemma {:induction false} LoggedAppend(a: seq<Event>, b: seq<Event>)
    ensures Logged(a + b) == Logged(a) + Logged(b)
    decreases |a|
  {
    if |a| == 0 {
      assert a + b == b;
    } else {
      assert (a + b)[0] == a[0] && (a + b)[1..] == a[1..] + b;
      LoggedAppend(a[1..], b);
    }
  }

  lemma {:induction false} QueryCountAppend(a: seq<Event>, b: seq<Event>)
    ensures QueryCount(a + b) == QueryCount(a) + QueryCount(b)
    decreases |a|
  {
    if |a| == 0 {
      assert a + b == b;
    } else {
      assert (a + b)[0] == a[0] && (a + b)[1..] == a[1..] + b;
      QueryCountAppend(a[1..], b);
    }
  }

  lemma {:induction false} SleptAppend(a: seq<Event>, b: seq<Event>)
    ensures SleptMs(a + b) == SleptMs(a) + SleptMs(b)
    decreases |a|
  {
    if |a| == 0 {
      assert a + b == b;
    } else {
      assert (a + b)[0] == a[0] && (a + b)[1..] == a[1..] + b;
      SleptAppend(a[1..], b);
    }
  }

  // ---- one iteration ----

  datatype StepResult = StepResult(last: string, landed: bool, events: seq<Event>)

  /** One pass through the body of the loop, from the status request to the
      end of the `try`/`catch`; `last` is `lastStatus` on entry. */
  function Step(bundleId: Option<string>, reply: Reply, last: string): (r: StepResult)
    ensures QueryCount(r.events) == 1
    ensures r.landed <==> StatusOf(reply) == Some(LandedStatus)
  {
    QueryCountAppend([Queried(bundleId)], StepTail(reply, last));
    SingleEvent(Queried(bundleId));
    StepTailQueries(reply, last);
    StepResult(
      match StatusOf(reply) case Some(status) => status case None => last,
      StatusOf(reply) == Some(LandedStatus),
      [Queried(bundleId)] + StepTail(reply, last))
  }

  /** What an iteration does after its status request: the "Bundle status:"
      line when the status changed, then the landing line, the error line or
      the interval sleep. */
  function StepTail(reply: Reply, last: string): seq<Event> {
    match StatusOf(reply)
    case None => [ErrorLogged]
    case Some(status) =>
      (if status != last then [StatusLogged(status)] else [])
      + [ if status == LandedStatus then LandedLogged
          else if status == FailedStatus then ErrorLogged
          else Slept(PollIntervalMs) ]
  }

  lemma StepTailQueries(reply: Reply, last: string)
    ensures QueryCount(StepTail(reply, last)) == 0
  {
    var t := StepTail(reply, last);
    if StatusOf(reply).Some? {
      var status := StatusOf(reply).value;
      var logs: seq<Event> := if status != last then [StatusLogged(status)] else [];
      var final := t[|t| - 1];
      assert t == logs + [final];
      QueryCountAppend(logs, [final]);
      SingleEvent(final);
      if status != last {
        SingleEvent(StatusLogged(status));
      }
    } else {
      SingleEvent(ErrorLogged);
    }
  }

  /** One iteration: it makes one status request first; `lastStatus` takes
      the status read, if any; the status is logged exactly when it differs
      from `lastStatus`; the interval sleep happens exactly for an ordinary
      status; an error is logged exactly when no status could be read or the
      status was "Failed". */
  lemma StepSpec(bundleId: Option<string>, reply: Reply, last: string)
    ensures var r := Step(bundleId, reply, last);
      && |r.events| > 0 && r.events[0] == Queried(bundleId)
      && (r.last != last ==> StatusOf(reply) == Some(r.last))
      && (StatusOf(reply).Some? ==> r.last == StatusOf(reply).value)
      && Logged(r.events) == (if StatusOf(reply).Some? && StatusOf(reply).value != last then [StatusOf(reply).value] else [])
      && SleptMs(r.events) == (if SleepsAfter(reply) then PollIntervalMs else 0)
      && (ErrorLogged in r.events <==> StatusOf(reply).None? || StatusOf(reply) == Some(FailedStatus))
  {
    var t := StepTail(reply, last);
    TraceAppend([Queried(bundleId)], t);
    SingleEvent(Queried(bundleId));
    if StatusOf(reply).Some? {
      var status := StatusOf(reply).value;
      var logs: seq<Event> := if status != last then [StatusLogged(status)] else [];
      var final := t[|t| - 1];
      assert t == logs + [final];
      TraceAppend(logs, [final]);
      SingleEvent(final);
      if status != last {
        SingleEvent(StatusLogged(status));
      }
    } else {
      SingleEvent(ErrorLogged);
    }
  }

  lemma SingleEvent(e: Event)
    ensures Logged([e]) == (if e.StatusLogged? then [e.status] else [])
    ensures QueryCount([e]) == (if e.Queried? then 1 else 0)
    ensures SleptMs([e]) == (if e.Slept? then e.ms else 0)
  {
    assert [e][1..] == [];
  }

  // ---- the clock ----

  /** The inputs of one polling run. `reply(j)` answers the status request
      of iteration j (iterations are numbered from 0). `gap(j)` is the time
      the clock moves before the loop-condition check of iteration j, beyond
      the interval sleep of the iteration before and one millisecond. */
  datatype PollEnv = PollEnv(gap: nat -> nat, reply: nat -> Reply)

  /** The interval sleep taken in iteration j. */
  function Pause(env: PollEnv, j: nat): nat {
    if SleepsAfter(env.reply(j)) then PollIntervalMs else 0
  }

  /** `Date.now() - startTime` at the loop-condition check before iteration j
      (`startTime` itself is read after the warm-up). The first check may
      fall in the same millisecond as `startTime`; every later check is
      strictly later than the one before, and at least the interval sleep
      later when the iteration in between slept. */
  function CheckTime(env: PollEnv, j: nat): nat {
    if j == 0 then env.gap(0)
    else CheckTime(env, j - 1) + Pause(env, j - 1) + 1 + env.gap(j)
  }

  lemma {:induction false} CheckTimeMonotone(env: PollEnv, a: nat, b: nat)
    requires a <= b
    ensures CheckTime(env, a) + (b - a) <= CheckTime(env, b)
    decreases b - a
  {
    if a < b {
      CheckTimeMonotone(env, a, b - 1);
    }
  }

  // ---- the loop ----

  /** What a run of the loop did: whether it returned true, how many status
      requests it made (iterations are numbered from 0), and its events. */
  datatype PollRun = PollRun(landed: bool, queries: nat, events: seq<Event>)

  /** No status request of iterations a .. b-1 read "Landed". */
  predicate NoneLanded(env: PollEnv, a: nat, b: int) {
    forall j :: a <= j < b ==> StatusOf(env.reply(j)) != Some(LandedStatus)
  }

  /** The loop from iteration k on, with `lastStatus` equal to `last`. */
  function Loop(env: PollEnv, bundleId: Option<string>, k: nat, last: string): (r: PollRun)
    decreases PollTimeoutMs - CheckTime(env, k)
    ensures k <= r.queries
    ensures QueryCount(r.events) == r.queries - k
    ensures r.landed ==> k < r.queries && StatusOf(env.reply(r.queries - 1)) == Some(LandedStatus)
  {
    if CheckTime(env, k) >= PollTimeoutMs then
      PollRun(false, k, [])
    else
      var step := Step(bundleId, env.reply(k), last);
      if step.landed then
        PollRun(true, k + 1, step.events)
      else
        var rest := Loop(env, bundleId, k + 1, step.last);
        TraceAppend(step.events, rest.events);
        PollRun(rest.landed, rest.queries, step.events + rest.events)
  }

  /** How a run of the loop from iteration k ends, read off the replies and
      the clock alone: whether it returns true, and after how many status
      requests. */
  datatype Exit = Exit(landed: bool, queries: nat)

  function Iterations(env: PollEnv, k: nat): (e: Exit)
    decreases PollTimeoutMs - CheckTime(env, k)
    ensures k <= e.queries
  {
    if CheckTime(env, k) >= PollTimeoutMs then Exit(false, k)
    else if StatusOf(env.reply(k)) == Some(LandedStatus) then Exit(true, k + 1)
    else Iterations(env, k + 1)
  }

  /** The loop ends as `Iterations` says: neither the status log nor
      `lastStatus` has any say in when it stops. */
  lemma {:induction false} LoopFollowsIterations(env: PollEnv, bundleId: Option<string>, k: nat, last: string)
    ensures Loop(env, bundleId, k, last).landed == Iterations(env, k).landed
    ensures Loop(env, bundleId, k, last).queries == Iterations(env, k).queries
    decreases PollTimeoutMs - CheckTime(env, k)
  {
    if CheckTime(env, k) < PollTimeoutMs {
      var step := Step(bundleId, env.reply(k), last);
      if !step.landed {
        LoopFollowsIterations(env, bundleId, k + 1, step.last);
      }
    }
  }

  /** The last iteration entered passed its clock check (so, the clock being
      monotone, all of them did), and the loop gives up only once a clock
      check fails. */
  lemma {:induction false} IterationsWithinDeadline(env: PollEnv, k: nat)
    ensures var e := Iterations(env, k);
      && (k < e.queries ==> CheckTime(env, e.queries - 1) < PollTimeoutMs)
      && (!e.landed ==> CheckTime(env, e.queries) >= PollTimeoutMs)
    decreases PollTimeoutMs - CheckTime(env, k)
  {
    if CheckTime(env, k) < PollTimeoutMs && StatusOf(env.reply(k)) != Some(LandedStatus) {
      IterationsWithinDeadline(env, k + 1);
    }
  }

  /** The loop returns true on the first "Landed" reply: none of the replies
      before the one it returned on read "Landed", nor any reply of a run
      that gave up. */
  lemma {:induction false} IterationsStopAtFirstLanded(env: PollEnv, k: nat)
    ensures var e := Iterations(env, k);
      NoneLanded(env, k, if e.landed then e.queries - 1 else e.queries)
    decreases PollTimeoutMs - CheckTime(env, k)
  {
    if CheckTime(env, k) < PollTimeoutMs && StatusOf(env.reply(k)) != Some(LandedStatus) {
      IterationsStopAtFirstLanded(env, k + 1);
    }
  }

  /** `pollBundleStatus`: the warm-up sleep, then the loop with an empty
      `lastStatus`. */
  function PollBundleStatus(env: PollEnv, bundleId: Option<string>): (r: PollRun)
    ensures |r.events| > 0 && r.events[0] == Slept(DefaultWaitBeforePollMs)
  {
    var run := Loop(env, bundleId, 0, "");
    TraceAppend([Slept(DefaultWaitBeforePollMs)], run.events);
    PollRun(run.landed, run.queries, [Slept(DefaultWaitBeforePollMs)] + run.events)
  }

  /** How the promise settles: true on landing, the timeout error otherwise. */
  function Settle(run: PollRun): (c: Call<bool>)
    ensures c.Returned? ==> c.value
    ensures c.Threw? <==> !run.landed
    ensures c.Threw? ==> c.error == PollingTimeout
  {
    if run.landed then Returned(true) else Threw(PollingTimeout)
  }

  // ---- properties of a polling run ----

  /** A run makes one status request per iteration, each entered before the
      deadline; it returns true only on a reply reading "Landed", no earlier
      reply read "Landed", and it gives up only once the clock check is past
      the deadline. */
  lemma PollBundleStatusSpec(env: PollEnv, bundleId: Option<string>)
    ensures var r := PollBundleStatus(env, bundleId);
      && QueryCount(r.events) == r.queries
      && (r.landed ==> 0 < r.queries && StatusOf(env.reply(r.queries - 1)) == Some(LandedStatus))
      && NoneLanded(env, 0, if r.landed then r.queries - 1 else r.queries)
      && (0 < r.queries ==> CheckTime(env, r.queries - 1) < PollTimeoutMs)
      && (!r.landed ==> CheckTime(env, r.queries) >= PollTimeoutMs)
  {
    TraceAppend([Slept(DefaultWaitBeforePollMs)], Loop(env, bundleId, 0, "").events);
    LoopFollowsIterations(env, bundleId, 0, "");
    IterationsWithinDeadline(env, 0);
    IterationsStopAtFirstLanded(env, 0);
  }

  /** Every status request of a run is made before the deadline. */
  lemma QueryBeforeDeadline(env: PollEnv, bundleId: Option<string>, j: nat)
    requires j < PollBundleStatus(env, bundleId).queries
    ensures CheckTime(env, j) < PollTimeoutMs
  {
    PollBundleStatusSpec(env, bundleId);
    CheckTimeMonotone(env, j, PollBundleStatus(env, bundleId).queries - 1);
  }

  /** The first reply whose status is "Landed", if it is requested before the
      deadline, ends the run with true, and no request follows it. */
  lemma LandsOnFirstLanded(env: PollEnv, bundleId: Option<string>, j: nat)
    requires StatusOf(env.reply(j)) == Some(LandedStatus)
    requires NoneLanded(env, 0, j)
    requires CheckTime(env, j) < PollTimeoutMs
    ensures PollBundleStatus(env, bundleId).landed
    ensures PollBundleStatus(env, bundleId).queries == j + 1
  {
    var r := PollBundleStatus(env, bundleId);
    PollBundleStatusSpec(env, bundleId);
    if !r.landed {
      if r.queries <= j {
        CheckTimeMonotone(env, r.queries, j);
      }
      assert false;
    }
  }

  /** Only two things end the loop: a "Landed" status, or the deadline. A
      failed request, a malformed reply, an empty status list, a "Failed"
      status or any other status lets the next iteration run whenever the
      clock check before it is still within the deadline. */
  lemma OnlyLandedOrDeadlineExit(env: PollEnv, bundleId: Option<string>, j: nat)
    requires j < PollBundleStatus(env, bundleId).queries
    requires StatusOf(env.reply(j)) != Some(LandedStatus)
    requires CheckTime(env, j + 1) < PollTimeoutMs
    ensures j + 1 < PollBundleStatus(env, bundleId).queries
  {
    PollBundleStatusSpec(env, bundleId);
  }

  /** Whatever the relay answers, the loop makes at most one status request
      per millisecond of the deadline, under the model's clock (see
      `CheckTime`), which gains at least a millisecond per loop check. */
  lemma QueriesBounded(env: PollEnv, bundleId: Option<string>)
    ensures PollBundleStatus(env, bundleId).queries <= PollTimeoutMs
  {
    var r := PollBundleStatus(env, bundleId);
    PollBundleStatusSpec(env, bundleId);
    if r.queries > 0 {
      CheckTimeMonotone(env, 0, r.queries - 1);
    }
  }

  /** When every reply is an ordinary status (neither "Landed" nor "Failed"),
      each iteration sleeps the interval, so the run times out after at most
      ten requests. */
  lemma PendingRunMakesAtMostTenQueries(env: PollEnv, bundleId: Option<string>)
    requires forall j: nat :: SleepsAfter(env.reply(j))
    ensures !PollBundleStatus(env, bundleId).landed
    ensures PollBundleStatus(env, bundleId).queries <= 10
  {
    var r := PollBundleStatus(env, bundleId);
    PollBundleStatusSpec(env, bundleId);
    if r.queries > 10 {
      PendingCheckTime(env, 10);
      CheckTimeMonotone(env, 10, r.queries - 1);
      assert false;
    }
  }

  lemma {:induction false} PendingCheckTime(env: PollEnv, j: nat)
    requires forall i: nat :: SleepsAfter(env.reply(i))
    ensures CheckTime(env, j) >= (PollIntervalMs + 1) * j
  {
    if j > 0 {
      PendingCheckTime(env, j - 1);
      assert Pause(env, j - 1) == PollIntervalMs;
    }
  }

  // ---- de-duplicated status logging ----

  /** The statuses read by iterations k .. n-1, skipping those that threw
      before a status was read. */
  function ObservedStatuses(env: PollEnv, k: nat, n: nat): seq<string>
    decreases n - k
  {
    if n <= k then []
    else
      (match StatusOf(env.reply(k)) case Some(s) => [s] case None => [])
      + ObservedStatuses(env, k + 1, n)
  }

  /** Reference definition of de-duplication: keep a status exactly when it
      differs from the one kept or started with before it. */
  function Changes(statuses: seq<string>, last: string): seq<string> {
    if |statuses| == 0 then []
    else (if statuses[0] != last then [statuses[0]] else []) + Changes(statuses[1..], statuses[0])
  }

  /** A de-duplicated sequence never repeats a status twice in a row, nor
      starts with the status it started from. */
  lemma {:induction false} ChangesNeverRepeat(statuses: seq<string>, last: string)
    ensures forall i :: 0 < i < |Changes(statuses, last)| ==> Changes(statuses, last)[i] != Changes(statuses, last)[i - 1]
    ensures |Changes(statuses, last)| > 0 ==> Changes(statuses, last)[0] != last
  {
    if |statuses| > 0 {
      ChangesNeverRepeat(statuses[1..], statuses[0]);
      var c := Changes(statuses, last);
      var rest := Changes(statuses[1..], statuses[0]);
      if statuses[0] != last {
        assert c == [statuses[0]] + rest;
        forall i | 0 < i < |c|
          ensures c[i] != c[i - 1]
        {
          if i > 1 {
            assert c[i] == rest[i - 1] && c[i - 1] == rest[i - 2];
          }
        }
      } else {
        assert c == rest;
      }
    }
  }

  lemma {:induction false} ObservedStatusesStep(env: PollEnv, k: nat, n: nat)
    requires k < n
    ensures ObservedStatuses(env, k, n)
      == (match StatusOf(env.reply(k)) case Some(s) => [s] case None => []) + ObservedStatuses(env, k + 1, n)
  {
  }

  /** The "Bundle status:" log lines of a run are exactly the de-duplicated
      sequence of the statuses it read. */
  lemma {:induction false} LoopLogsChanges(env: PollEnv, bundleId: Option<string>, k: nat, last: string)
    ensures Logged(Loop(env, bundleId, k, last).events)
      == Changes(ObservedStatuses(env, k, Loop(env, bundleId, k, last).queries), last)
    decreases PollTimeoutMs - CheckTime(env, k)
  {
    if CheckTime(env, k) < PollTimeoutMs {
      var step := Step(bundleId, env.reply(k), last);
      if step.landed {
        LandedStepLogs(env, bundleId, k, last);
      } else {
        LoopLogsChanges(env, bundleId, k + 1, step.last);
        ContinuedStepLogs(env, bundleId, k, last);
      }
    }
  }

  /** The iteration that reads "Landed" is the last one. */
  lemma LandedStepLogs(env: PollEnv, bundleId: Option<string>, k: nat, last: string)
    requires CheckTime(env, k) < PollTimeoutMs
    requires Step(bundleId, env.reply(k), last).landed
    ensures Logged(Loop(env, bundleId, k, last).events)
      == Changes(ObservedStatuses(env, k, Loop(env, bundleId, k, last).queries), last)
  {
    StepSpec(bundleId, env.reply(k), last);
    ObservedStatusesStep(env, k, k + 1);
    assert ObservedStatuses(env, k + 1, k + 1) == [];
    assert ObservedStatuses(env, k, k + 1) == [LandedStatus];
    assert [LandedStatus][1..] == [];
  }

  /** An iteration that does not return logs its status when it changed, and
      the rest of the run goes on from there. */
  lemma ContinuedStepLogs(env: PollEnv, bundleId: Option<string>, k: nat, last: string)
    requires CheckTime(env, k) < PollTimeoutMs
    requires !Step(bundleId, env.reply(k), last).landed
    requires var step := Step(bundleId, env.reply(k), last);
      Logged(Loop(env, bundleId, k + 1, step.last).events)
      == Changes(ObservedStatuses(env, k + 1, Loop(env, bundleId, k + 1, step.last).queries), step.last)
    ensures Logged(Loop(env, bundleId, k, last).events)
      == Changes(ObservedStatuses(env, k, Loop(env, bundleId, k, last).queries), last)
  {
    var step := Step(bundleId, env.reply(k), last);
    StepSpec(bundleId, env.reply(k), last);
    var rest := Loop(env, bundleId, k + 1, step.last);
    var r := Loop(env, bundleId, k, last);
    assert r.queries == rest.queries && r.events == step.events + rest.events;
    TraceAppend(step.events, rest.events);
    ObservedStatusesStep(env, k, r.queries);
    var tailObserved := ObservedStatuses(env, k + 1, r.queries);
    match StatusOf(env.reply(k))
    case None =>
      assert ObservedStatuses(env, k, r.queries) == tailObserved;
    case Some(s) =>
      assert ObservedStatuses(env, k, r.queries) == [s] + tailObserved;
      assert ([s] + tailObserved)[1..] == tailObserved;
  }

  /** The same, for a whole `pollBundleStatus` run, which starts from the
      empty `lastStatus`. */
  lemma PollLogsChanges(env: PollEnv, bundleId: Option<string>)
    ensures Logged(PollBundleStatus(env, bundleId).events)
      == Changes(ObservedStatuses(env, 0, PollBundleStatus(env, bundleId).queries), "")
  {
    LoopLogsChanges(env, bundleId, 0, "");
    TraceAppend([Slept(DefaultWaitBeforePollMs)], Loop(env, bundleId, 0, "").events);
    assert [Slept(DefaultWaitBeforePollMs)][1..] == [];
  }
}

=== FILE: queue.dfy ===
/** The batch runner of JITOScript/index.ts: read the work-queue file, run
    every entry that is not "completed" through `processSwap`, set its status
    from the result and rewrite the whole file after each entry. */
module WorkQueue {
  import opened Outcomes
  import opened Records
  import SwapExecution

  const CompletedStatus: string := "completed"
  const FailedStatus: string := "failed"

  /** The only entries the batch skips: status exactly "completed". */
  predicate IsCompleted(swap: Swap) {
    swap.status == Some(CompletedStatus)
  }

  // ---- processSwap ----

  /** `processSwap`: runs `executeSwap` on the entry's mints and amount and
      reports whether it returned without throwing. */
  function ProcessSwap(config: SwapExecution.Config, oracle: SwapExecution.Oracle, swap: Swap): (ok: bool)
    ensures ok <==> SwapExecution.Expected(config, oracle).Returned?
  {
    SwapExecution.ExecuteSwapFollowsStages(config, oracle, swap.inputMint, swap.outputMint, swap.amount);
    !SwapExecution.ExecuteSwap(config, oracle, swap.inputMint, swap.outputMint, swap.amount).outcome.Threw?
  }

  /** A swap whose simulation is rejected returns normally from
      `executeSwap`, so `processSwap` reports success for it. */
  lemma SimulationRejectedCountsAsSuccess(config: SwapExecution.Config, oracle: SwapExecution.Oracle, swap: Swap)
    requires SwapExecution.ReachesSimulation(config, oracle)
    requires !SwapExecution.SimulateTx(oracle.simulation)
    ensures ProcessSwap(config, oracle, swap)
    ensures SwapExecution.ExecuteSwap(config, oracle, swap.inputMint, swap.outputMint, swap.amount).outcome
      == Returned(SwapExecution.SimulationRejected)
  {
    SwapExecution.ExecuteSwapInOrder(config, oracle, swap.inputMint, swap.outputMint, swap.amount);
    SwapExecution.ExecuteSwapGate(config, oracle, swap.inputMint, swap.outputMint, swap.amount);
  }

  /** Only the mints and the amount of an entry reach the swap pipeline: two
      entries that agree on them run identically, whatever their slippage,
      priority fee, compute units, tip or status, and the tip sent is always
      the fixed amount rather than the entry's `jitoTip`. */
  lemma OnlyMintsAndAmountMatter(config: SwapExecution.Config, oracle: SwapExecution.Oracle, a: Swap, b: Swap)
    requires a.inputMint == b.inputMint && a.outputMint == b.outputMint && a.amount == b.amount
    ensures ProcessSwap(config, oracle, a) == ProcessSwap(config, oracle, b)
    ensures SwapExecution.ExecuteSwap(config, oracle, a.inputMint, a.outputMint, a.amount)
      == SwapExecution.ExecuteSwap(config, oracle, b.inputMint, b.outputMint, b.amount)
    ensures forall t :: t in SwapExecution.ExecuteSwap(config, oracle, a.inputMint, a.outputMint, a.amount).trace && t.CreateTip? ==>
      t.lamports == SwapExecution.JitoTipLamports
  {
    var r := SwapExecution.ExecuteSwap(config, oracle, a.inputMint, a.outputMint, a.amount);
    SwapExecution.ExecuteSwapInOrder(config, oracle, a.inputMint, a.outputMint, a.amount);
    SwapExecution.ExecuteSwapArguments(config, oracle, a.inputMint, a.outputMint, a.amount);
    forall t | t in r.trace && t.CreateTip?
      ensures t.lamports == SwapExecution.JitoTipLamports
    {
      var k :| 0 <= k < |r.trace| && r.trace[k] == t;
      assert SwapExecution.Rank(t) == k;
    }
  }

  // ---- the batch: reference definitions ----

  /** What the batch learns when it reaches an entry it runs: what
      `processSwap` returned, and whether the `writeJson` after it succeeded. */
  datatype Attempt = Attempt(success: bool, written: bool)

  /** The entry with its status set from the result of `processSwap`. */
  function Settle(swap: Swap, success: bool): (s: Swap)
    ensures s.status.Some? && (s.status.value == CompletedStatus <==> success)
    ensures s.status.value == CompletedStatus || s.status.value == FailedStatus
    ensures s.(status := swap.status) == swap
  {
    swap.(status := Some(if success then CompletedStatus else FailedStatus))
  }

  /** The array after the entries before position n have been handled:
      those not "completed" are settled, everything else is as read. */
  function SettledUpTo(swaps: seq<Swap>, attempts: seq<Attempt>, n: nat): seq<Swap>
    requires |attempts| == |swaps|
  {
    seq(|swaps|, i requires 0 <= i < |swaps| =>
      if i < n && !IsCompleted(swaps[i]) then Settle(swaps[i], attempts[i].success) else swaps[i])
  }

  /** Handling position i changes that entry only, and only when it is not
      "completed". */
  lemma SettledStep(swaps: seq<Swap>, attempts: seq<Attempt>, i: nat)
    requires |attempts| == |swaps| && i < |swaps|
    ensures SettledUpTo(swaps, attempts, i)[i] == swaps[i]
    ensures IsCompleted(swaps[i]) ==> SettledUpTo(swaps, attempts, i + 1) == SettledUpTo(swaps, attempts, i)
    ensures !IsCompleted(swaps[i]) ==>
      SettledUpTo(swaps, attempts, i + 1) == SettledUpTo(swaps, attempts, i)[i := Settle(swaps[i], attempts[i].success)]
  {
  }

  /** The positions below n that the batch runs. */
  function PendingBelow(swaps: seq<Swap>, n: nat): seq<nat>
    requires n <= |swaps|
  {
    if n == 0 then []
    else PendingBelow(swaps, n - 1) + (if IsCompleted(swaps[n - 1]) then [] else [n - 1])
  }

  /** Looking at one more position adds it exactly when it is not
      "completed". */
  lemma PendingStep(swaps: seq<Swap>, i: nat)
    requires i < |swaps|
    ensures IsCompleted(swaps[i]) ==> PendingBelow(swaps, i + 1) == PendingBelow(swaps, i)
    ensures !IsCompleted(swaps[i]) ==> PendingBelow(swaps, i + 1) == PendingBelow(swaps, i) + [i]
  {
    if IsCompleted(swaps[i]) {
      assert PendingBelow(swaps, i) + [] == PendingBelow(swaps, i);
    }
  }

  /** They are exactly the positions below n not "completed", in increasing
      order. */
  lemma {:induction false} PendingBelowExactly(swaps: seq<Swap>, n: nat)
    requires n <= |swaps|
    ensures forall k :: 0 <= k < |PendingBelow(swaps, n)| ==>
      PendingBelow(swaps, n)[k] < n && !IsCompleted(swaps[PendingBelow(swaps, n)[k]])
    ensures forall k, l :: 0 <= k < l < |PendingBelow(swaps, n)| ==> PendingBelow(swaps, n)[k] < PendingBelow(swaps, n)[l]
    ensures forall i :: 0 <= i < n && !IsCompleted(swaps[i]) ==> i in PendingBelow(swaps, n)
  {
    if n > 0 {
      PendingBelowExactly(swaps, n - 1);
    }
  }

  /** How many entries the batch gets through from position i on: all of
      them, or up to and including the first run entry whose write fails
      (the failed write escapes the loop into the outer `catch`). */
  function HorizonFrom(swaps: seq<Swap>, attempts: seq<Attempt>, i: nat): (h: nat)
    requires |attempts| == |swaps| && i <= |swaps|
    ensures i <= h <= |swaps|
    decreases |swaps| - i
  {
    if i == |swaps| then |swaps|
    else if !IsCompleted(swaps[i]) && !attempts[i].written then i + 1
    else HorizonFrom(swaps, attempts, i + 1)
  }

  function Horizon(swaps: seq<Swap>, attempts: seq<Attempt>): nat
    requires |attempts| == |swaps|
  {
    HorizonFrom(swaps, attempts, 0)
  }

  /** The array written after each run position: everything up to and
      including that position handled. */
  function Snapshots(swaps: seq<Swap>, attempts: seq<Attempt>, executed: seq<nat>): (ws: seq<seq<Swap>>)
    requires |attempts| == |swaps|
    ensures |ws| == |executed|
    ensures forall k :: 0 <= k < |ws| ==> ws[k] == SettledUpTo(swaps, attempts, executed[k] + 1)
  {
    seq(|executed|, k requires 0 <= k < |executed| => SettledUpTo(swaps, attempts, executed[k] + 1))
  }

  lemma SnapshotsAppend(swaps: seq<Swap>, attempts: seq<Attempt>, executed: seq<nat>, i: nat)
    requires |attempts| == |swaps|
    ensures Snapshots(swaps, attempts, executed + [i])
      == Snapshots(swaps, attempts, executed) + [SettledUpTo(swaps, attempts, i + 1)]
  {
    var a := Snapshots(swaps, attempts, executed + [i]);
    var b := Snapshots(swaps, attempts, executed) + [SettledUpTo(swaps, attempts, i + 1)];
    assert |a| == |b|;
    forall k | 0 <= k < |a|
      ensures a[k] == b[k]
    {
      if k < |executed| {
        assert (executed + [i])[k] == executed[k];
      }
    }
  }

  /** What a batch run did: the array as it stands at the end, the positions
      it ran in order, the arrays it passed to `writeJson` in order, and
      whether a failed write cut it short. */
  datatype BatchRun = BatchRun(entries: seq<Swap>, executed: seq<nat>, writes: seq<seq<Swap>>, aborted: bool)

  /** Reference: what the batch does, stated entry by entry. Nothing happens
      when the file cannot be read; otherwise the entries up to the horizon
      are handled, and the run is cut short exactly when the last of them was
      run and its write failed. */
  function ExpectedBatch(read: Option<seq<Swap>>, attempts: seq<Attempt>): BatchRun
    requires read.Some? ==> |attempts| == |read.value|
  {
    match read
    case None => BatchRun([], [], [], false)
    case Some(swaps) =>
      var h := Horizon(swaps, attempts);
      var executed := PendingBelow(swaps, h);
      BatchRun(
        SettledUpTo(swaps, attempts, h),
        executed,
        Snapshots(swaps, attempts, executed),
        h > 0 && !IsCompleted(swaps[h - 1]) && !attempts[h - 1].written)
  }

  // ---- the batch ----

  /** `executeSwaps`. `read` is the array `readJson` produced, None when
      reading or parsing the file failed; `attempts[i]` is what happens if
      position i is run. */
  method ExecuteSwaps(read: Option<seq<Swap>>, attempts: seq<Attempt>) returns (run: BatchRun)
    requires read.Some? ==> |attempts| == |read.value|
    ensures run == ExpectedBatch(read, attempts)
  {
    if read.None? {
      return BatchRun([], [], [], false);
    }
    var swaps := read.value;
    var entries := swaps;
    var executed: seq<nat> := [];
    var writes: seq<seq<Swap>> := [];
    var i := 0;
    while i < |entries|
      invariant 0 <= i <= |swaps| && |entries| == |swaps|
      invariant entries == SettledUpTo(swaps, attempts, i)
      invariant executed == PendingBelow(swaps, i)
      invariant writes == Snapshots(swaps, attempts, executed)
      invariant Horizon(swaps, attempts) == HorizonFrom(swaps, attempts, i)
      invariant forall j :: 0 <= j < i ==> IsCompleted(swaps[j]) || attempts[j].written
    {
      SettledStep(swaps, attempts, i);
      PendingStep(swaps, i);
      if entries[i].status == Some(CompletedStatus) {
        i := i + 1;
        continue;
      }
      var success := attempts[i].success;
      entries := entries[i := Settle(entries[i], success)];
      SnapshotsAppend(swaps, attempts, executed, i);
      executed := executed + [i];
      writes := writes + [entries];
      if !attempts[i].written {
        AbortsAt(swaps, attempts, i);
        return BatchRun(entries, executed, writes, true);
      }
      i := i + 1;
    }
    FinishesAll(swaps, attempts);
    return BatchRun(entries, executed, writes, false);
  }

  /** A run position whose write fails is the last one handled. */
  lemma AbortsAt(swaps: seq<Swap>, attempts: seq<Attempt>, i: nat)
    requires |attempts| == |swaps| && i < |swaps|
    requires Horizon(swaps, attempts) == HorizonFrom(swaps, attempts, i)
    requires !IsCompleted(swaps[i]) && !attempts[i].written
    ensures ExpectedBatch(Some(swaps), attempts)
      == BatchRun(SettledUpTo(swaps, attempts, i + 1), PendingBelow(swaps, i + 1),
                  Snapshots(swaps, attempts, PendingBelow(swaps, i + 1)), true)
  {
  }

  /** When no write fails, the whole array is handled and the run is not cut
      short. */
  lemma FinishesAll(swaps: seq<Swap>, attempts: seq<Attempt>)
    requires |attempts| == |swaps|
    requires Horizon(swaps, attempts) == |swaps|
    requires forall j :: 0 <= j < |swaps| ==> IsCompleted(swaps[j]) || attempts[j].written
    ensures ExpectedBatch(Some(swaps), attempts)
      == BatchRun(SettledUpTo(swaps, attempts, |swaps|), PendingBelow(swaps, |swaps|),
                  Snapshots(swaps, attempts, PendingBelow(swaps, |swaps|)), false)
  {
  }

  /** The array the file holds after the run: the last array whose write
      succeeded, or the array as read when none did. This takes a failed
      write to leave the file as it was; a write that fails part-way can
      leave it truncated, which is not modelled. */
  function Persisted(swaps: seq<Swap>, run: BatchRun): seq<Swap> {
    var good := if run.aborted && |run.writes| > 0 then run.writes[..|run.writes| - 1] else run.writes;
    if |good| == 0 then swaps else good[|good| - 1]
  }

  // ---- properties of a batch run ----

  /** A file that cannot be read is left alone: nothing runs, nothing is
      written. */
  lemma UnreadableFileDoesNothing(attempts: seq<Attempt>)
    ensures ExpectedBatch(None, attempts).executed == []
    ensures ExpectedBatch(None, attempts).writes == []
  {
  }

  /** The batch keeps the array's length and order and every field but the
      status; a "completed" entry is never run and keeps its status; every
      other entry the batch gets through is run and ends "completed" exactly
      when `processSwap` succeeded, "failed" otherwise; the entries beyond
      the horizon are untouched. */
  lemma {:induction false} BatchEntries(swaps: seq<Swap>, attempts: seq<Attempt>)
    requires |attempts| == |swaps|
    ensures |ExpectedBatch(Some(swaps), attempts).entries| == |swaps|
    ensures forall i :: 0 <= i < |swaps| ==>
      ExpectedBatch(Some(swaps), attempts).entries[i].(status := swaps[i].status) == swaps[i]
    ensures forall i :: 0 <= i < |swaps| && IsCompleted(swaps[i]) ==>
      ExpectedBatch(Some(swaps), attempts).entries[i] == swaps[i] && i !in ExpectedBatch(Some(swaps), attempts).executed
    ensures forall i :: 0 <= i < Horizon(swaps, attempts) && !IsCompleted(swaps[i]) ==>
      && i in ExpectedBatch(Some(swaps), attempts).executed
      && ExpectedBatch(Some(swaps), attempts).entries[i].status
         == Some(if attempts[i].success then CompletedStatus else FailedStatus)
    ensures forall i :: Horizon(swaps, attempts) <= i < |swaps| ==>
      ExpectedBatch(Some(swaps), attempts).entries[i] == swaps[i] && i !in ExpectedBatch(Some(swaps), attempts).executed
  {
    PendingBelowExactly(swaps, Horizon(swaps, attempts));
  }

  /** Entries run strictly in array order, each at most once. */
  lemma RunInOrder(swaps: seq<Swap>, attempts: seq<Attempt>)
    requires |attempts| == |swaps|
    ensures forall k, l :: 0 <= k < l < |ExpectedBatch(Some(swaps), attempts).executed| ==>
      ExpectedBatch(Some(swaps), attempts).executed[k] < ExpectedBatch(Some(swaps), attempts).executed[l]
  {
    PendingBelowExactly(swaps, Horizon(swaps, attempts));
  }

  /** The k-th array written reflects exactly the status updates of the first
      k+1 entries run, and nothing else. */
  lemma {:induction false} SnapshotReflectsRunEntries(swaps: seq<Swap>, attempts: seq<Attempt>, k: nat)
    requires |attempts| == |swaps|
    requires k < |ExpectedBatch(Some(swaps), attempts).writes|
    ensures |ExpectedBatch(Some(swaps), attempts).writes[k]| == |swaps|
    ensures forall i :: 0 <= i < |swaps| ==>
      ExpectedBatch(Some(swaps), attempts).writes[k][i]
      == (if i in ExpectedBatch(Some(swaps), attempts).executed[..k + 1] then Settle(swaps[i], attempts[i].success) else swaps[i])
  {
    var r := ExpectedBatch(Some(swaps), attempts);
    var h := Horizon(swaps, attempts);
    PendingBelowExactly(swaps, h);
    var ex := r.executed;
    var w := r.writes[k];
    assert w == SettledUpTo(swaps, attempts, ex[k] + 1);
    forall i | 0 <= i < |swaps|
      ensures w[i] == (if i in ex[..k + 1] then Settle(swaps[i], attempts[i].success) else swaps[i])
    {
      if i in ex[..k + 1] {
        var l :| 0 <= l < k + 1 && ex[..k + 1][l] == i;
        assert ex[l] == i;
        assert l == k || ex[l] < ex[k];
      }
    }
  }

  /** Running the batch again over a file where every entry is "completed"
      runs nothing, writes nothing and changes nothing. */
  lemma {:induction false} AllCompletedIsIdempotent(swaps: seq<Swap>, attempts: seq<Attempt>)
    requires |attempts| == |swaps|
    requires forall i :: 0 <= i < |swaps| ==> IsCompleted(swaps[i])
    ensures ExpectedBatch(Some(swaps), attempts) == BatchRun(swaps, [], [], false)
  {
    var h := Horizon(swaps, attempts);
    AllCompletedHorizon(swaps, attempts, 0);
    NoPendingBelow(swaps, h);
    assert SettledUpTo(swaps, attempts, h) == swaps;
  }

  lemma {:induction false} AllCompletedHorizon(swaps: seq<Swap>, attempts: seq<Attempt>, i: nat)
    requires |attempts| == |swaps| && i <= |swaps|
    requires forall j :: 0 <= j < |swaps| ==> IsCompleted(swaps[j])
    ensures HorizonFrom(swaps, attempts, i) == |swaps|
    decreases |swaps| - i
  {
    if i < |swaps| {
      AllCompletedHorizon(swaps, attempts, i + 1);
    }
  }

  lemma {:induction false} NoPendingBelow(swaps: seq<Swap>, n: nat)
    requires n <= |swaps|
    requires forall j :: 0 <= j < |swaps| ==> IsCompleted(swaps[j])
    ensures PendingBelow(swaps, n) == []
  {
    if n > 0 {
      NoPendingBelow(swaps, n - 1);
    }
  }

  /** When every write succeeds the batch gets through the whole array, every
      entry ends "completed" or "failed", and the file ends up holding the
      final array. */
  lemma CleanBatch(swaps: seq<Swap>, attempts: seq<Attempt>)
    requires |attempts| == |swaps|
    requires forall i :: 0 <= i < |swaps| ==> attempts[i].written
    ensures !ExpectedBatch(Some(swaps), attempts).aborted
    ensures forall i :: 0 <= i < |swaps| ==>
      ExpectedBatch(Some(swaps), attempts).entries[i].status in {Some(CompletedStatus), Some(FailedStatus)}
    ensures Persisted(swaps, ExpectedBatch(Some(swaps), attempts)) == ExpectedBatch(Some(swaps), attempts).entries
  {
    CleanHorizon(swaps, attempts, 0);
    BatchEntries(swaps, attempts);
    CleanBatchPersisted(swaps, attempts);
  }

  lemma CleanBatchPersisted(swaps: seq<Swap>, attempts: seq<Attempt>)
    requires |attempts| == |swaps|
    requires forall i :: 0 <= i < |swaps| ==> attempts[i].written
    ensures Persisted(swaps, ExpectedBatch(Some(swaps), attempts)) == ExpectedBatch(Some(swaps), attempts).entries
  {
    CleanHorizon(swaps, attempts, 0);
    var ex := PendingBelow(swaps, |swaps|);
    CleanBatchShape(swaps, attempts);
    PendingBelowTail(swaps, |swaps|);
    if |ex| == 0 {
      SettledSkipsCompleted(swaps, attempts, 0, |swaps|);
      assert SettledUpTo(swaps, attempts, 0) == swaps;
    } else {
      var next := ex[|ex| - 1] + 1;
      assert forall i :: next <= i < |swaps| ==> IsCompleted(swaps[i]);
      SettledSkipsCompleted(swaps, attempts, next, |swaps|);
    }
  }

  /** With every write succeeding, the run is not cut short, and the file
      ends with the array written after the last position run. */
  lemma CleanBatchShape(swaps: seq<Swap>, attempts: seq<Attempt>)
    requires |attempts| == |swaps|
    requires Horizon(swaps, attempts) == |swaps|
    requires forall i :: 0 <= i < |swaps| ==> attempts[i].written
    ensures var ex := PendingBelow(swaps, |swaps|);
      && ExpectedBatch(Some(swaps), attempts).entries == SettledUpTo(swaps, attempts, |swaps|)
      && Persisted(swaps, ExpectedBatch(Some(swaps), attempts))
         == (if |ex| == 0 then swaps else SettledUpTo(swaps, attempts, ex[|ex| - 1] + 1))
  {
    var r := ExpectedBatch(Some(swaps), attempts);
    var ex := PendingBelow(swaps, |swaps|);
    assert !r.aborted;
    var w := r.writes;
    assert w == Snapshots(swaps, attempts, ex) && |w| == |ex|;
    if |ex| > 0 {
      assert w[|w| - 1] == SettledUpTo(swaps, attempts, ex[|ex| - 1] + 1);
      assert Persisted(swaps, r) == w[|w| - 1];
    }
  }

  /** Every entry after the last position run is "completed". */
  lemma {:induction false} PendingBelowTail(swaps: seq<Swap>, n: nat)
    requires n <= |swaps|
    ensures |PendingBelow(swaps, n)| == 0 ==> forall i :: 0 <= i < n ==> IsCompleted(swaps[i])
    ensures |PendingBelow(swaps, n)| > 0 ==>
      && PendingBelow(swaps, n)[|PendingBelow(swaps, n)| - 1] < n
      && forall i :: PendingBelow(swaps, n)[|PendingBelow(swaps, n)| - 1] < i < n ==> IsCompleted(swaps[i])
  {
    if n > 0 {
      PendingBelowTail(swaps, n - 1);
      if IsCompleted(swaps[n - 1]) {
        assert PendingBelow(swaps, n) == PendingBelow(swaps, n - 1);
      }
    }
  }

  /** Entries that are "completed" do not change the array when handled. */
  lemma SettledSkipsCompleted(swaps: seq<Swap>, attempts: seq<Attempt>, n: nat, m: nat)
    requires |attempts| == |swaps| && n <= m <= |swaps|
    requires forall i :: n <= i < m ==> IsCompleted(swaps[i])
    ensures SettledUpTo(swaps, attempts, n) == SettledUpTo(swaps, attempts, m)
  {
  }

  lemma {:induction false} CleanHorizon(swaps: seq<Swap>, attempts: seq<Attempt>, i: nat)
    requires |attempts| == |swaps| && i <= |swaps|
    requires forall j :: 0 <= j < |swaps| ==> attempts[j].written
    ensures HorizonFrom(swaps, attempts, i) == |swaps|
    decreases |swaps| - i
  {
    if i < |swaps| {
      CleanHorizon(swaps, attempts, i + 1);
    }
  }

  // ---- the batch over real swap runs ----

  /** What the batch learns at each position when `processSwap` runs the
      swap pipeline with that position's oracle. */
  function SwapAttempts(config: SwapExecution.Config, swaps: seq<Swap>, oracles: seq<SwapExecution.Oracle>, written: seq<bool>): (attempts: seq<Attempt>)
    requires |oracles| == |swaps| && |written| == |swaps|
    ensures |attempts| == |swaps|
    ensures forall i :: 0 <= i < |swaps| ==> attempts[i].success == ProcessSwap(config, oracles[i], swaps[i]) && attempts[i].written == written[i]
  {
    seq(|swaps|, i requires 0 <= i < |swaps| => Attempt(ProcessSwap(config, oracles[i], swaps[i]), written[i]))
  }

  /** Across the two files: an entry whose swap passes every stage up to the
      simulation and is then rejected by it is recorded "completed", though
      no bundle was ever sent for it (`SwapExecution.RejectedRunSendsNothing`). */
  lemma RejectedSimulationRecordedCompleted(
    config: SwapExecution.Config, swaps: seq<Swap>, oracles: seq<SwapExecution.Oracle>, written: seq<bool>, i: nat)
    requires |oracles| == |swaps| && |written| == |swaps|
    requires i < Horizon(swaps, SwapAttempts(config, swaps, oracles, written))
    requires !IsCompleted(swaps[i])
    requires SwapExecution.ReachesSimulation(config, oracles[i])
    requires !SwapExecution.SimulateTx(oracles[i].simulation)
    ensures ExpectedBatch(Some(swaps), SwapAttempts(config, swaps, oracles, written)).entries[i].status == Some(CompletedStatus)
  {
    var attempts := SwapAttempts(config, swaps, oracles, written);
    SimulationRejectedCountsAsSuccess(config, oracles[i], swaps[i]);
    BatchEntries(swaps, attempts);
  }
}

=== FILE: records.dfy ===
/** The swap request record kept in the work-queue file `output.json`
    (the `Swap` interface of JITOScript/index.ts, written by sniper.js), and
    the JSON values the file holds. */
module Records {
  import opened Outcomes

  /** A swap request. `status` is absent on a fresh record, and is set to
      "completed" or "failed" once the request has been run. */
  datatype Swap = Swap(
    inputMint: string,
    outputMint: string,
    amount: int,
    slippageBps: int,
    priorityFee: int,
    computeUnits: int,
    jitoTip: int,
    status: Option<string>)

  /** A JSON value; numbers are restricted to integers, the only numbers the
      work queue holds. An object keeps its members in order. */
  datatype Json =
    | JNull
    | JBool(b: bool)
    | JNumber(n: int)
    | JString(s: string)
    | JArray(items: seq<Json>)
    | JObject(members: seq<(string, Json)>)

  /** The member a JSON object yields for `key`: the last one with that key,
      as `JSON.parse` keeps the last of duplicated keys. */
  function Member(members: seq<(string, Json)>, key: string): Option<Json> {
    if |members| == 0 then None
    else if members[|members| - 1].0 == key then Some(members[|members| - 1].1)
    else Member(members[..|members| - 1], key)
  }

  /** A key is found exactly when some member has it, and what is found is
      stored under it. */
  lemma {:induction false} MemberFound(members: seq<(string, Json)>, key: string)
    ensures Member(members, key).Some? <==> exists i :: 0 <= i < |members| && members[i].0 == key
    ensures Member(members, key).Some? ==> exists i :: 0 <= i < |members| && members[i] == (key, Member(members, key).value)
  {
    if |members| > 0 && members[|members| - 1].0 != key {
      var prefix := members[..|members| - 1];
      MemberFound(prefix, key);
      assert forall i :: 0 <= i < |prefix| ==> prefix[i] == members[i];
    }
  }

  /** The object `JSON.stringify` writes for a record: members in declaration
      order, and no "status" member while the status is absent. */
  function ToJson(swap: Swap): Json {
    JObject(
      [ ("inputMint", JString(swap.inputMint)),
        ("outputMint", JString(swap.outputMint)),
        ("amount", JNumber(swap.amount)),
        ("slippageBps", JNumber(swap.slippageBps)),
        ("priorityFee", JNumber(swap.priorityFee)),
        ("computeUnits", JNumber(swap.computeUnits)),
        ("jitoTip", JNumber(swap.jitoTip)) ]
      + (match swap.status case Some(s) => [("status", JString(s))] case None => []))
  }

  function StringMember(members: seq<(string, Json)>, key: string): Option<string> {
    match Member(members, key)
    case Some(JString(s)) => Some(s)
    case _ => None
  }

  function NumberMember(members: seq<(string, Json)>, key: string): Option<int> {
    match Member(members, key)
    case Some(JNumber(n)) => Some(n)
    case _ => None
  }

  /** Reads a JSON value as a record: an object whose seven fixed members have
      the right types, and whose "status", if present, is a string. */
  function FromJson(j: Json): (r: Option<Swap>)
    ensures r.Some? ==> j.JObject?
    ensures r.Some? ==> (r.value.status.None? <==> Member(j.members, "status").None?)
  {
    match j
    case JObject(ms) =>
      var inputMint := StringMember(ms, "inputMint");
      var outputMint := StringMember(ms, "outputMint");
      var amount := NumberMember(ms, "amount");
      var slippage := NumberMember(ms, "slippageBps");
      var fee := NumberMember(ms, "priorityFee");
      var units := NumberMember(ms, "computeUnits");
      var tip := NumberMember(ms, "jitoTip");
      var status := Member(ms, "status");
      if inputMint.None? || outputMint.None? || amount.None? || slippage.None?
        || fee.None? || units.None? || tip.None?
      then None
      else if status.Some? && !status.value.JString? then None
      else
        Some(Swap(inputMint.value, outputMint.value, amount.value, slippage.value,
                  fee.value, units.value, tip.value,
                  if status.Some? then Some(status.value.s) else None))
    case _ => None
  }

  /** Reading back what was written gives the record it was written from. */
  lemma RecordRoundTrip(swap: Swap)
    ensures FromJson(ToJson(swap)) == Some(swap)
  {
    FixedMembers(swap);
    StatusMember(swap);
    ReadsMembers(ToJson(swap).members, swap);
  }

  /** An object whose members read as the fields of a record reads as that
      record. */
  lemma ReadsMembers(ms: seq<(string, Json)>, swap: Swap)
    requires StringMember(ms, "inputMint") == Some(swap.inputMint)
    requires StringMember(ms, "outputMint") == Some(swap.outputMint)
    requires NumberMember(ms, "amount") == Some(swap.amount)
    requires NumberMember(ms, "slippageBps") == Some(swap.slippageBps)
    requires NumberMember(ms, "priorityFee") == Some(swap.priorityFee)
    requires NumberMember(ms, "computeUnits") == Some(swap.computeUnits)
    requires NumberMember(ms, "jitoTip") == Some(swap.jitoTip)
    requires Member(ms, "status") == (match swap.status case Some(s) => Some(JString(s)) case None => None)
    ensures FromJson(JObject(ms)) == Some(swap)
  {
  }

  /** The "status" member of a written record is its status, when it has one. */
  lemma StatusMember(swap: Swap)
    ensures Member(ToJson(swap).members, "status")
      == (match swap.status case Some(s) => Some(JString(s)) case None => None)
  {
    var ms := ToJson(swap).members;
    if swap.status.Some? {
      RecordMember(swap, 7);
    } else {
      assert forall i :: 0 <= i < |ms| ==> ms[i].0 != "status";
      MemberFound(ms, "status");
    }
  }

  lemma FixedMembers(swap: Swap)
    ensures StringMember(ToJson(swap).members, "inputMint") == Some(swap.inputMint)
    ensures StringMember(ToJson(swap).members, "outputMint") == Some(swap.outputMint)
    ensures NumberMember(ToJson(swap).members, "amount") == Some(swap.amount)
    ensures NumberMember(ToJson(swap).members, "slippageBps") == Some(swap.slippageBps)
    ensures NumberMember(ToJson(swap).members, "priorityFee") == Some(swap.priorityFee)
    ensures NumberMember(ToJson(swap).members, "computeUnits") == Some(swap.computeUnits)
    ensures NumberMember(ToJson(swap).members, "jitoTip") == Some(swap.jitoTip)
  {
    StringFields(swap);
    NumberFields(swap);
  }

  lemma StringFields(swap: Swap)
    ensures StringMember(ToJson(swap).members, "inputMint") == Some(swap.inputMint)
    ensures StringMember(ToJson(swap).members, "outputMint") == Some(swap.outputMint)
  {
    RecordMember(swap, 0);
    RecordMember(swap, 1);
  }

  lemma NumberFields(swap: Swap)
    ensures NumberMember(ToJson(swap).members, "amount") == Some(swap.amount)
    ensures NumberMember(ToJson(swap).members, "slippageBps") == Some(swap.slippageBps)
    ensures NumberMember(ToJson(swap).members, "priorityFee") == Some(swap.priorityFee)
    ensures NumberMember(ToJson(swap).members, "computeUnits") == Some(swap.computeUnits)
    ensures NumberMember(ToJson(swap).members, "jitoTip") == Some(swap.jitoTip)
  {
    RecordMember(swap, 2);
    RecordMember(swap, 3);
    RecordMember(swap, 4);
    RecordMember(swap, 5);
    RecordMember(swap, 6);
  }

  lemma RecordMember(swap: Swap, i: nat)
    requires i < |ToJson(swap).members|
    ensures Member(ToJson(swap).members, ToJson(swap).members[i].0) == Some(ToJson(swap).members[i].1)
  {
    RecordKeysDistinct(swap);
    MemberOfDistinct(ToJson(swap).members, i);
  }

  lemma RecordKeysDistinct(swap: Swap)
    ensures forall a, b :: 0 <= a < b < |ToJson(swap).members| ==> ToJson(swap).members[a].0 != ToJson(swap).members[b].0
  {
  }

  /** In an object whose keys are all different, the member for a key is the
      one stored under it. */
  lemma {:induction false} MemberOfDistinct(members: seq<(string, Json)>, i: nat)
    requires i < |members|
    requires forall a, b :: 0 <= a < b < |members| ==> members[a].0 != members[b].0
    ensures Member(members, members[i].0) == Some(members[i].1)
    decreases |members|
  {
    if i < |members| - 1 {
      var prefix := members[..|members| - 1];
      assert prefix[i] == members[i];
      MemberOfDistinct(prefix, i);
    }
  }
}

=== FILE: swap.dfy ===
/** The swap orchestration of `JitoSwapManager` (JITOScript/jito.ts): check the
    configuration, get a quote and a swap transaction, sign it, pick a tip
    account and build the tip transaction, simulate the swap, send the
    two-transaction bundle and poll for it. Every network or library call is
    an input: the `Oracle` says what each awaited call produced. */
module SwapExecution {
  import opened Outcomes
  import BundlePoller

  /** The parts of the `CONFIG` object and the wallet that the pipeline reads. */
  datatype Config = Config(
    walletSecret: seq<int>,     // WALLET_SECRET split on commas, [] when unset; only its length is checked
    jitoEndpoint: string,       // JITO_ENDPOINT, '' when unset
    walletPublicKey: string)    // the wallet's public key, in base58

  /** The routing service's quote; passed back unchanged to the swap service. */
  datatype Quote = Quote(body: string)

  /** The swap service's answer: the unsigned swap transaction in base64. */
  datatype SwapResponse = SwapResponse(swapTransaction: string)

  /** What `simulateTransaction` reports: an error value, if any, and the logs. */
  datatype Simulation = Simulation(err: Option<string>, logs: seq<string>)

  /** What each awaited call of one `executeSwap` run produced. */
  datatype Oracle = Oracle(
    quote: Call<Option<Quote>>,         // jupiterApi.quoteGet
    swap: Call<Option<SwapResponse>>,   // jupiterApi.swapPost
    signedSwap: Call<string>,           // deserialize, sign and serialize the swap transaction: base64
    tipAccounts: Call<seq<string>>,     // the getTipAccounts RPC
    tipPick: nat,                       // the random draw that picks a tip account
    tipTx: Call<string>,                // build, stamp and sign the tip transaction: base64
    simulation: Call<Simulation>,       // connection.simulateTransaction on the signed swap
    bundle: Call<Option<string>>,       // the sendBundle RPC's `result`; None when the relay sent an error instead
    poll: BundlePoller.PollEnv,         // what the status poller observes
    bodyIsJson: string -> bool,         // whether `response.json()` can parse an HTTP error body
    toBase58: string -> string)         // convertBase64ToBase58

  /** The stages of `executeSwap`, each with the arguments it is entered with. */
  datatype Stage =
    | CheckEnvironment
    | QuoteGet(inputMint: string, outputMint: string, amount: int, restrictIntermediateTokens: bool)
    | SwapPost(quote: Quote, userPublicKey: string)
    | SignSwap(swapTransaction: string)
    | GetTipAccounts
    | CreateTip(tipAccount: Option<string>, lamports: nat)
    | Simulate(signedSwap: string)
    | SendBundle(transactions: seq<string>)
    | PollStatus(bundleId: Option<string>)

  /** The position of a stage in the pipeline. */
  function Rank(stage: Stage): nat {
    match stage
    case CheckEnvironment => 0
    case QuoteGet(_, _, _, _) => 1
    case SwapPost(_, _) => 2
    case SignSwap(_) => 3
    case GetTipAccounts => 4
    case CreateTip(_, _) => 5
    case Simulate(_) => 6
    case SendBundle(_) => 7
    case PollStatus(_) => 8
  }

  /** How a run ends when nothing throws. */
  datatype SwapResult = SimulationRejected | BundleLanded(bundleId: Option<string>)

  /** The run's outcome and the stages it entered, in order. */
  datatype SwapRun = SwapRun(outcome: Call<SwapResult>, trace: seq<Stage>)

  // ---- the stages ----

  /** `checkEnvironment`: the wallet secret is checked before the endpoint. */
  function CheckEnv(config: Config): (r: Call<()>)
    ensures r.Returned? <==> |config.walletSecret| > 0 && config.jitoEndpoint != ""
    ensures r.Threw? ==> r.error == (if |config.walletSecret| == 0 then NoWalletSecret else NoJitoEndpoint)
  {
    if |config.walletSecret| == 0 then Threw(NoWalletSecret)
    else if config.jitoEndpoint == "" then Threw(NoJitoEndpoint)
    else Returned(())
  }

  /** `getSwapQuote`: an exception of the client passes through; an empty
      answer becomes 'No quote found'. */
  function GetSwapQuote(reply: Call<Option<Quote>>): (r: Call<Quote>)
    ensures forall q :: r == Returned(q) <==> reply == Returned(Some(q))
    ensures reply.Threw? ==> r == Threw(reply.error)
    ensures reply == Returned(None) ==> r == Threw(NoQuoteFound)
  {
    match reply
    case Threw(e) => Threw(e)
    case Returned(None) => Threw(NoQuoteFound)
    case Returned(Some(q)) => Returned(q)
  }

  /** `getSwapTransaction`: the same shape, with 'No swap result found'. */
  function GetSwapTransaction(reply: Call<Option<SwapResponse>>): (r: Call<SwapResponse>)
    ensures forall s :: r == Returned(s) <==> reply == Returned(Some(s))
    ensures reply.Threw? ==> r == Threw(reply.error)
    ensures reply == Returned(None) ==> r == Threw(NoSwapResultFound)
  {
    match reply
    case Threw(e) => Threw(e)
    case Returned(None) => Threw(NoSwapResultFound)
    case Returned(Some(s)) => Returned(s)
  }

  /** `getTipAccount`: one of the returned accounts, picked by the random
      draw; nothing (`undefined`) when the list is empty. */
  function GetTipAccount(reply: Call<seq<string>>, pick: nat): (r: Call<Option<string>>)
    ensures reply.Threw? ==> r == Threw(reply.error)
    ensures reply.Returned? ==> r.Returned?
    ensures reply.Returned? && r.value.Some? ==> r.value.value in reply.value
    ensures reply.Returned? ==> (r.value.None? <==> |reply.value| == 0)
  {
    match reply
    case Threw(e) => Threw(e)
    case Returned(accounts) =>
      if |accounts| == 0 then Returned(None) else Returned(Some(accounts[pick % |accounts|]))
  }

  /** `CONFIG.JITO_TIP_AMOUNT`: 0.0005 SOL in lamports, the same for every swap. */
  const JitoTipLamports: nat := 500000

  /** `createTipTransaction`: without an account the key constructor throws;
      otherwise the blockhash fetch and signing decide. */
  function CreateTipTransaction(account: Option<string>, reply: Call<string>): (r: Call<string>)
    ensures account.None? ==> r == Threw(UndefinedTipAccount)
    ensures account.Some? ==> r == reply
  {
    if account.None? then Threw(UndefinedTipAccount) else reply
  }

  /** `simulateTx`: true exactly when the simulation call did not throw and
      reported no error; it never throws itself. */
  function SimulateTx(reply: Call<Simulation>): (ok: bool)
    ensures ok <==> reply.Returned? && reply.value.err.None?
    ensures reply.Threw? ==> !ok
  {
    match reply
    case Threw(_) => false
    case Returned(sim) => sim.err.None?
  }

  /** The bundle id `sendBundle` hands on, `undefined` when it threw. */
  function BundleIdOf(oracle: Oracle): Option<string> {
    match oracle.bundle
    case Returned(id) => id
    case Threw(_) => None
  }

  /** How `pollBundleStatus` settles for the bundle id: true once a status
      request reads "Landed", the timeout error otherwise. */
  function PollVerdict(env: BundlePoller.PollEnv, bundleId: Option<string>): (c: Call<bool>)
    ensures c.Threw? ==> c.error == PollingTimeout
  {
    BundlePoller.Settle(BundlePoller.PollBundleStatus(env, bundleId))
  }

  // ---- the pipeline ----

  /** Where the stages up to `sendBundle` leave a run: stopped with its
      outcome, or with the bundle sent and the id the relay gave. */
  datatype Progress = Stopped(run: SwapRun) | Sent(trace: seq<Stage>, bundleId: Option<string>)

  /** The stages of `executeSwap` up to and including `sendBundle`. */
  function Submit(config: Config, oracle: Oracle, inputMint: string, outputMint: string, amount: int): (p: Progress)
    ensures p.Stopped? ==> 0 < |p.run.trace| <= 8
    ensures p.Stopped? && p.run.outcome.Returned? ==> p.run.outcome.value == SimulationRejected
    ensures p.Sent? ==> |p.trace| == 8 && p.bundleId == BundleIdOf(oracle)
  {
    var s0 := CheckEnvironment;
    var env := CheckEnv(config);
    if env.Threw? then Stopped(SwapRun(Threw(env.error), [s0])) else

    var s1 := QuoteGet(inputMint, outputMint, amount, true);
    var quote := GetSwapQuote(oracle.quote);
    if quote.Threw? then Stopped(SwapRun(Threw(quote.error), [s0, s1])) else

    var s2 := SwapPost(quote.value, config.walletPublicKey);
    var swap := GetSwapTransaction(oracle.swap);
    if swap.Threw? then Stopped(SwapRun(Threw(swap.error), [s0, s1, s2])) else

    var s3 := SignSwap(swap.value.swapTransaction);
    if oracle.signedSwap.Threw? then Stopped(SwapRun(Threw(oracle.signedSwap.error), [s0, s1, s2, s3])) else
    var b58Swap := oracle.toBase58(oracle.signedSwap.value);

    var s4 := GetTipAccounts;
    var account := GetTipAccount(oracle.tipAccounts, oracle.tipPick);
    if account.Threw? then Stopped(SwapRun(Threw(account.error), [s0, s1, s2, s3, s4])) else

    var s5 := CreateTip(account.value, JitoTipLamports);
    var tip := CreateTipTransaction(account.value, oracle.tipTx);
    if tip.Threw? then Stopped(SwapRun(Threw(tip.error), [s0, s1, s2, s3, s4, s5])) else
    var b58Tip := oracle.toBase58(tip.value);

    var s6 := Simulate(oracle.signedSwap.value);
    if !SimulateTx(oracle.simulation) then Stopped(SwapRun(Returned(SimulationRejected), [s0, s1, s2, s3, s4, s5, s6])) else

    var s7 := SendBundle([b58Swap, b58Tip]);
    if oracle.bundle.Threw? then Stopped(SwapRun(Threw(oracle.bundle.error), [s0, s1, s2, s3, s4, s5, s6, s7])) else
    Sent([s0, s1, s2, s3, s4, s5, s6, s7], oracle.bundle.value)
  }

  /** The error the `catch` of `executeSwap` finally throws. For an HTTP
      error it first awaits `error.response.json()`; when that rejects, its
      rejection escapes instead of the original error. */
  function Rethrow(oracle: Oracle, e: Error): (r: Error)
    ensures r != e <==> e.ApiError? && !oracle.bodyIsJson(e.body)
    ensures r != e ==> r == BodyNotJson(e.body)
  {
    if e.ApiError? && !oracle.bodyIsJson(e.body) then BodyNotJson(e.body) else e
  }

  /** The error escapes unchanged exactly unless it is an HTTP error whose
      body cannot be parsed, which is replaced by the parse failure. */
  lemma RethrowChangesOnlyUnreadableBodies(oracle: Oracle, e: Error)
    ensures Rethrow(oracle, e) == e <==> !(e.ApiError? && !oracle.bodyIsJson(e.body))
    ensures Rethrow(oracle, e) != e ==> Rethrow(oracle, e) == BodyNotJson(e.body)
    ensures !e.ApiError? ==> Rethrow(oracle, e) == e
  {
  }

  /** `executeSwap`: each stage runs only when every earlier stage succeeded;
      the first error goes through the `catch` and is rethrown; a rejected
      simulation returns normally before anything is sent; a sent bundle is
      polled for. */
  function ExecuteSwap(config: Config, oracle: Oracle, inputMint: string, outputMint: string, amount: int): (r: SwapRun)
    ensures 0 < |r.trace| <= 9
    ensures r.outcome.Returned? ==> |r.trace| >= 7
  {
    match Submit(config, oracle, inputMint, outputMint, amount)
    case Stopped(run) =>
      if run.outcome.Threw? then SwapRun(Threw(Rethrow(oracle, run.outcome.error)), run.trace) else run
    case Sent(trace, bundleId) =>
      var landed := PollVerdict(oracle.poll, bundleId);
      SwapRun(if landed.Threw? then Threw(Rethrow(oracle, landed.error)) else Returned(BundleLanded(bundleId)),
              trace + [PollStatus(bundleId)])
  }

  // ---- what a run does ----

  /** The stages up to `sendBundle` are entered in pipeline order. */
  lemma SubmitRanks(config: Config, oracle: Oracle, inputMint: string, outputMint: string, amount: int)
    ensures var p := Submit(config, oracle, inputMint, outputMint, amount);
      var trace := if p.Stopped? then p.run.trace else p.trace;
      forall i :: 0 <= i < |trace| ==> Rank(trace[i]) == i
  {
  }

  /** The stages are entered in pipeline order. */
  lemma ExecuteSwapRanks(config: Config, oracle: Oracle, inputMint: string, outputMint: string, amount: int)
    ensures var r := ExecuteSwap(config, oracle, inputMint, outputMint, amount);
      forall i :: 0 <= i < |r.trace| ==> Rank(r.trace[i]) == i
  {
    SubmitRanks(config, oracle, inputMint, outputMint, amount);
  }

  /** Every stage before the last one entered succeeded, and the run throws
      exactly when that last stage faulted, with that stage's error as the
      `catch` rethrows it. */
  lemma ExecuteSwapFaults(config: Config, oracle: Oracle, inputMint: string, outputMint: string, amount: int)
    ensures var r := ExecuteSwap(config, oracle, inputMint, outputMint, amount);
      && (forall i :: 0 <= i < |r.trace| - 1 ==> Fault(config, oracle, i).None?)
      && (r.outcome.Threw? <==> Fault(config, oracle, |r.trace| - 1).Some?)
      && (r.outcome.Threw? ==>
            Fault(config, oracle, |r.trace| - 1).Some?
            && r.outcome.error == Rethrow(oracle, Fault(config, oracle, |r.trace| - 1).value))
  {
  }

  /** Both together. */
  lemma ExecuteSwapInOrder(config: Config, oracle: Oracle, inputMint: string, outputMint: string, amount: int)
    ensures var r := ExecuteSwap(config, oracle, inputMint, outputMint, amount);
      && (forall i :: 0 <= i < |r.trace| ==> Rank(r.trace[i]) == i)
      && (forall i :: 0 <= i < |r.trace| - 1 ==> Fault(config, oracle, i).None?)
      && (r.outcome.Threw? <==> Fault(config, oracle, |r.trace| - 1).Some?)
      && (r.outcome.Threw? ==>
            Fault(config, oracle, |r.trace| - 1).Some?
            && r.outcome.error == Rethrow(oracle, Fault(config, oracle, |r.trace| - 1).value))
  {
    ExecuteSwapRanks(config, oracle, inputMint, outputMint, amount);
    ExecuteSwapFaults(config, oracle, inputMint, outputMint, amount);
  }

  /** The simulation is the gate: a run that reaches it stops there exactly
      when it rejects, and returns normally when it does; a landed run went
      through all nine stages with the id the relay returned. */
  lemma ExecuteSwapGate(config: Config, oracle: Oracle, inputMint: string, outputMint: string, amount: int)
    ensures var r := ExecuteSwap(config, oracle, inputMint, outputMint, amount);
      && (r.outcome == Returned(SimulationRejected) <==> |r.trace| == 7)
      && (|r.trace| >= 7 ==> (|r.trace| > 7 <==> SimulateTx(oracle.simulation)))
      && (r.outcome.Returned? && r.outcome.value.BundleLanded? ==>
            |r.trace| == 9 && r.outcome.value.bundleId == BundleIdOf(oracle))
  {
  }

  /** What the stages are entered with: the entry's mints and amount with
      intermediate tokens restricted, the fixed tip amount, and a bundle of
      the signed swap followed by the tip transaction, both in base58. */
  lemma ExecuteSwapArguments(config: Config, oracle: Oracle, inputMint: string, outputMint: string, amount: int)
    ensures var r := ExecuteSwap(config, oracle, inputMint, outputMint, amount);
      && (|r.trace| > 1 ==> r.trace[1] == QuoteGet(inputMint, outputMint, amount, true))
      && (|r.trace| > 5 ==> r.trace[5].CreateTip? && r.trace[5].lamports == JitoTipLamports)
      && (|r.trace| > 7 ==>
            && oracle.signedSwap.Returned? && oracle.tipTx.Returned?
            && r.trace[7] == SendBundle([oracle.toBase58(oracle.signedSwap.value), oracle.toBase58(oracle.tipTx.value)]))
  {
  }

  /** An HTTP error of the quote service whose body is not JSON does not
      escape: the failed `response.json()` in the `catch` replaces it. */
  lemma UnreadableQuoteErrorIsReplaced(config: Config, oracle: Oracle, inputMint: string, outputMint: string, amount: int, body: string)
    requires CheckEnv(config).Returned?
    requires oracle.quote == Threw(ApiError(body))
    requires !oracle.bodyIsJson(body)
    ensures ExecuteSwap(config, oracle, inputMint, outputMint, amount).outcome == Threw(BodyNotJson(body))
    ensures |ExecuteSwap(config, oracle, inputMint, outputMint, amount).trace| == 2
  {
  }

  /** A run whose simulation rejects the swap never sends a bundle. */
  lemma RejectedRunSendsNothing(config: Config, oracle: Oracle, inputMint: string, outputMint: string, amount: int)
    requires ReachesSimulation(config, oracle)
    requires !SimulateTx(oracle.simulation)
    ensures forall t :: t in ExecuteSwap(config, oracle, inputMint, outputMint, amount).trace ==> !t.SendBundle? && !t.PollStatus?
  {
    var r := ExecuteSwap(config, oracle, inputMint, outputMint, amount);
    ExecuteSwapInOrder(config, oracle, inputMint, outputMint, amount);
    ExecuteSwapGate(config, oracle, inputMint, outputMint, amount);
    forall t | t in r.trace
      ensures !t.SendBundle? && !t.PollStatus?
    {
      var k :| 0 <= k < |r.trace| && r.trace[k] == t;
      assert Rank(t) == k;
    }
  }

  // ---- reference: the pipeline as a list of stages ----

  /** The error stage `i` throws when it is entered, or None when it succeeds.
      The simulation stage never throws; its verdict is the gate. */
  function Fault(config: Config, oracle: Oracle, i: nat): Option<Error> {
    if i == 0 then
      if |config.walletSecret| == 0 then Some(NoWalletSecret)
      else if config.jitoEndpoint == "" then Some(NoJitoEndpoint)
      else None
    else if i == 1 then
      match oracle.quote
      case Threw(e) => Some(e)
      case Returned(None) => Some(NoQuoteFound)
      case Returned(Some(_)) => None
    else if i == 2 then
      match oracle.swap
      case Threw(e) => Some(e)
      case Returned(None) => Some(NoSwapResultFound)
      case Returned(Some(_)) => None
    else if i == 3 then
      if oracle.signedSwap.Threw? then Some(oracle.signedSwap.error) else None
    else if i == 4 then
      if oracle.tipAccounts.Threw? then Some(oracle.tipAccounts.error) else None
    else if i == 5 then
      if oracle.tipAccounts.Returned? && |oracle.tipAccounts.value| == 0 then Some(UndefinedTipAccount)
      else if oracle.tipTx.Threw? then Some(oracle.tipTx.error)
      else None
    else if i == 7 then
      if oracle.bundle.Threw? then Some(oracle.bundle.error) else None
    else if i == 8 then
      if PollVerdict(oracle.poll, BundleIdOf(oracle)).Returned? then None else Some(PollingTimeout)
    else None
  }

  /** None of the stages before the simulation throws. */
  predicate ReachesSimulation(config: Config, oracle: Oracle) {
    forall i :: 0 <= i < 6 ==> Fault(config, oracle, i).None?
  }

  /** How many stages a run enters from stage i on: up to the first stage
      that throws, up to the simulation when it rejects, or all nine. */
  function StagesFrom(config: Config, oracle: Oracle, i: nat): (n: nat)
    requires i <= 8
    ensures i < n <= 9
    decreases 8 - i
  {
    if Fault(config, oracle, i).Some? || i == 8 then i + 1
    else if i == 6 && !SimulateTx(oracle.simulation) then 7
    else StagesFrom(config, oracle, i + 1)
  }

  /** The outcome the stage list predicts. */
  function Expected(config: Config, oracle: Oracle): Call<SwapResult> {
    var n := StagesFrom(config, oracle, 0);
    match Fault(config, oracle, n - 1)
    case Some(e) => Threw(Rethrow(oracle, e))
    case None => if n == 7 then Returned(SimulationRejected) else Returned(BundleLanded(BundleIdOf(oracle)))
  }

  lemma {:induction false} StagesFromSkips(config: Config, oracle: Oracle, i: nat, j: nat)
    requires i <= j <= 8
    requires forall k :: i <= k < j ==> Fault(config, oracle, k).None?
    requires i <= 6 < j ==> SimulateTx(oracle.simulation)
    ensures StagesFrom(config, oracle, i) == StagesFrom(config, oracle, j)
    decreases j - i
  {
    if i < j {
      StagesFromSkips(config, oracle, i + 1, j);
    }
  }

  /** `executeSwap` behaves as the stage list predicts: it enters exactly the
      stages up to the first fault or the gate, and ends as predicted. */
  lemma ExecuteSwapFollowsStages(config: Config, oracle: Oracle, inputMint: string, outputMint: string, amount: int)
    ensures |ExecuteSwap(config, oracle, inputMint, outputMint, amount).trace| == StagesFrom(config, oracle, 0)
    ensures ExecuteSwap(config, oracle, inputMint, outputMint, amount).outcome == Expected(config, oracle)
  {
    var r := ExecuteSwap(config, oracle, inputMint, outputMint, amount);
    var n := |r.trace|;
    ExecuteSwapInOrder(config, oracle, inputMint, outputMint, amount);
    ExecuteSwapGate(config, oracle, inputMint, outputMint, amount);
    StagesFromSkips(config, oracle, 0, n - 1);
    if n == 7 && !SimulateTx(oracle.simulation) {
      assert StagesFrom(config, oracle, 6) == 7;
    }
  }
}
